=== FILE: README.md ===
# Synchronised multi-camera acquisition, modelled in Dafny

The repository is a small acquisition program for a dome of GigE Vision
polarisation cameras, plus a post-processing script.

The C++ program (`main.cpp`) has four steps:
- it prepares every camera the same way: manual exposure, a frame trigger on action command 0, action keys, PTP and transfer control;
- it waits until the cameras' PTP negotiation settles on one master;
- it schedules one broadcast action command a fixed delay after device 0's PTP time, so that every camera exposes at the same instant;
- it then releases the cameras one at a time, retrieving, saving and requeueing one image each.

The script (`extract.py`) splits a raw frame into its four polarisation views and warns when the 0° view is saturated.

## How the model is built

- `nodemaps.dfy` (module `NodeMaps`) holds the camera SDK's feature access:
  - node maps are `map<Feature, Value>`;
  - a layout (`Schema`) says which nodes exist and of what type;
  - a read or write the layout rejects raises a GenICam error (`NodeNotFound`, `WrongKind`).
- `arena.dfy` (module `Arena`) holds the SDK objects, as classes whose fields the calls update in place:
  - a `Device` has its node maps, PTP clock, stream and transfer-control state, pending frames and held buffers;
  - the `System` has its transport-layer node map and an append-only ghost `trace` of every command and image event;
  - the SDK calls are methods; `Accepts` states when a camera acts on a broadcast action command, following GigE Vision: equal device and group keys, and group masks that share a bit.
- `ptpsync.dfy` (module `PtpSync`) holds `wait_for_ptp_sync`: one poll round as a loop over the devices, and the wait as a loop over rounds.
- `prep.dfy` (module `Prep`) holds `sync_and_prep`:
  - each commented block of writes is a table of settings;
  - the straight-line calls are proved to leave the node map equal to `Apply(m, table)`;
  - the loop over devices and the system writes build on that.
- `doubles.dfy` (module `Doubles`) holds the execute-time arithmetic of `shoot`: the int64 latch plus the double 1000.0 is computed in IEEE 754 double precision, rounding to the nearest double with ties to even, and converted back. Below 2^53 this is exact; above, the doubles are 2^k apart and the sum is rounded.
- `capture.dfy` (module `Capture`) holds `shoot`: start the streams, latch and schedule the action command, run the capture loop, stop the streams. Its lemmas are about the trace, for example that transfer gates open one at a time and that every buffer goes back to its device.
- `acquisition.dfy` (module `Acquisition`) holds `main` after discovery: no camera gives exit code 0; otherwise prepare and shoot, and map any failure to exit code -1.
- `polarization.dfy` (module `Polarization`) holds `extract_polarized_bayer` and the over-exposure check, as pure functions on `seq<seq<nat>>`.

A `GetImage(3000)` timeout throws out of `shoot` (main.cpp:151), `main` returns -1 (main.cpp:429-438), and no later camera is captured. The model follows this: `Capture.CaptureImages` stops at the first failure, and `Acquisition.Run` returns -1.

## Model

| member | source | states |
|---|---|---|
| NodeMaps.ReadString | main.cpp:181 | a string read succeeds exactly when the node exists and holds a string, and returns that string; it fails with NodeNotFound exactly when the node is missing and with WrongKind exactly when the node holds another type |
| NodeMaps.ReadInt | main.cpp:118-120 | an integer read succeeds exactly when the node exists and holds an integer, and returns it; it fails with NodeNotFound exactly when the node is missing and with WrongKind exactly when the node holds another type |
| NodeMaps.WriteConforms | main.cpp:222-225 | an accepted write keeps a node map conforming to its layout |
| Doubles.UlpOfBinade | main.cpp:126 | between 2^(52+k) and 2^(53+k) the doubles are 2^k apart |
| Doubles.RoundToMultiple | main.cpp:126 | the result is a multiple of the spacing (a double) at most half a spacing away, an even multiple on a tie, and equal to the input when the spacing is 1 |
| Doubles.ToDoubleNearest | main.cpp:126 | converting an int64 to double moves it by at most half the spacing there, and not at all below 2^53 |
| Doubles.ExecuteTimeNear | main.cpp:123-126 | the execute time written, latch + DELTA_TIME with DELTA_TIME the double 1000.0, is exactly latch + 1000 when both lie below 2^53; otherwise it is off by at most half a spacing for each of its two roundings |
| Doubles.ExecuteTimeRounded | main.cpp:123-126 | for the PTP time 1760000000123456789 the program writes 1760000000123457792, not the exact sum |
| Arena.Device.constructor | main.cpp:409-412 | a created device holds the given node maps, clock and frames, is not streaming, has its gate closed and holds no buffer |
| Arena.System.constructor | main.cpp:396 | an opened system holds the given transport-layer node map and an empty trace |
| Arena.SharesBitWithOne | main.cpp:293-296 | a group mask shares a bit with mask 1 exactly when it is odd |
| Arena.BroadcastSpec | main.cpp:128-134 | firing reads the five action fields and succeeds exactly when all five are integer nodes; each field of the command is the node's value |
| Arena.SetNodeValue | main.cpp:222-225 | a device write succeeds exactly when the layout allows it; the node map is then updated at that node only, and is unchanged on failure |
| Arena.SetStreamNodeValue | main.cpp:316-319 | the same for the stream node map |
| Arena.SetSystemNodeValue | main.cpp:353-356 | the same for the system node map |
| Arena.LatchKeepsAccepts | main.cpp:112-115 | latching the PTP clock does not change which action commands a device acts on |
| Arena.ExecuteNode | main.cpp:150-152 | a command runs exactly when the node is a command node; PtpDataSetLatch samples the clock, TransferStart and TransferStop open and close the gate; one event is appended |
| Arena.ExecuteSystemNode | main.cpp:132-134 | firing broadcasts the command described by the system node map, and fails with the read error otherwise |
| Arena.StartStream | main.cpp:102-104 | the device streams and the start is logged |
| Arena.StopStream | main.cpp:166-168 | the device stops streaming and the stop is logged |
| Arena.GetImage | main.cpp:151 | an image arrives exactly when the stream runs, the gate is open and a frame is pending. It is the oldest frame, and its buffer becomes held. Otherwise the call fails with NotStreaming or Timeout and nothing changes |
| Arena.RequeueBuffer | main.cpp:160-161 | requeueing succeeds exactly for a held buffer and releases it |
| Arena.SaveImage | main.cpp:158-159 | saving logs which image went to which file |
| PtpSync.Statuses | main.cpp:178-181 | one status per device, in device order |
| PtpSync.SingleMasterByCount | main.cpp:182-197 | "one Master, all others Slave" is the same as exactly one Master and no status other than Master or Slave |
| PtpSync.NotSingle | main.cpp:183-186 | a second Master rules out a settled negotiation |
| PtpSync.StopsWithoutRaising | main.cpp:183-192 | a round that stops at a readable status (a second Master or an unsettled role) raises at no device |
| PtpSync.RaisesOnce | main.cpp:179-181 | at most one device raises in a round |
| PtpSync.PollPtpStatus | main.cpp:175-197 | one poll round reports true exactly when the negotiation has settled. It raises exactly when the round reaches an unreadable status, that is, when every earlier status is Master or Slave with no second Master. The error is then that status's read error |
| PtpSync.WaitForPtpSync | main.cpp:171-207 | the wait ends normally exactly when polling was allowed and the negotiation has settled. It ends with a read error exactly when polling was allowed and a round reaches an unreadable status, and the error is that status's. Otherwise it ends with NegotiationPending |
| Prep.ApplyConcat | main.cpp:212-341 | writing two tables in turn is writing their concatenation |
| Prep.AllWritableConcat | main.cpp:212-341 | a concatenation is accepted exactly when both parts are |
| Prep.ApplyUntouched | main.cpp:212-341 | a table that never names a node leaves that node as it was |
| Prep.ApplyWritten | main.cpp:212-341 | the last write of a node in a table is the value it ends with |
| Prep.ApplyConforms | main.cpp:212-341 | writes the layout accepts keep a node map within its layout |
| Prep.PreparedConforms | main.cpp:212-341 | a camera whose node maps fit their layouts still fits them once prepared |
| Prep.DeviceSettingsByBlock | main.cpp:217-340 | the whole preparation is the exposure, trigger, action, PTP, transfer and pixel blocks in that order; it is accepted exactly when each block is |
| Prep.ConfiguredUpdates | main.cpp:222-340 | the prepared node map is the original one with the sixteen written values |
| Prep.ConfiguredExposureAndTrigger | main.cpp:222-263 | a prepared camera has exposure and gain manual at 44000.0 and 12.0, and triggers frame start on Action0 |
| Prep.ConfiguredActionKeys | main.cpp:273-296 | a prepared camera acts unconditionally with action selector 0 and device key, group key and group mask 1 |
| Prep.ConfiguredTransfer | main.cpp:307-340 | a prepared camera has PTP on, user-controlled continuous transfer and pixel format BayerRG16 |
| Prep.ConfiguredBroadcast | main.cpp:353-371 | the prepared system fires device key 1, group key 1, mask 1, target 0xFFFFFFFF, at whatever execute time is set |
| Prep.AcceptsConfigured | main.cpp:267-296 | a prepared camera acts on an action command exactly when its keys are 1 and its mask is odd |
| Prep.BroadcastReachesConfigured | main.cpp:347-371 | every prepared camera acts on the command the prepared system fires |
| Prep.ConfigureExposure | main.cpp:217-240 | the exposure block succeeds exactly when all its writes are accepted, and then leaves the node map as the table writes it |
| Prep.ConfigureTrigger | main.cpp:244-263 | the same for the trigger block |
| Prep.ConfigureActionReceiver | main.cpp:267-296 | the same for the action block |
| Prep.ConfigureStream | main.cpp:314-319 | the same for the two stream-node writes |
| Prep.ConfigureTransferControl | main.cpp:321-329 | the same for transfer control, which also needs TransferStop to be a command; the gate is closed afterwards |
| Prep.PrepareDevice | main.cpp:213-340 | one camera is prepared exactly when its serial number reads and every write and the TransferStop are accepted; then its node maps are the prepared ones and its gate is closed |
| Prep.PrepareDevices | main.cpp:212-341 | the device loop succeeds exactly when every camera can be prepared, and then every camera is prepared, in order |
| Prep.PrepareSystem | main.cpp:343-371 | the system writes succeed exactly when all are accepted, and then the system node map is the prepared one; a system node map that fits its layout still fits it afterwards |
| Prep.ConfiguredKeepsStatus | main.cpp:375-388 | preparation does not write PtpStatus, so the wait reads what the cameras report |
| Prep.SyncAndPrep | main.cpp:209-389 | sync_and_prep passes exactly when every camera and the system accept the preparation and PTP settles. Then every node map is prepared, every gate closed, and the trace gains one TransferStop per camera |
| Capture.SerialOfName | main.cpp:155-157 | the PNG and raw file names of a camera are the prefix `Images/image_`, then its serial number, then `.png` or `.raw`, and nothing else |
| Capture.NamesDistinct | main.cpp:155-157 | different serial numbers give different file names, and no PNG name is a raw name |
| Capture.CaptureAll | main.cpp:139-162 | the capture loop's events are six per camera |
| Capture.CaptureAt | main.cpp:139-162 | camera i's six events sit at positions 6i to 6i+5, in loop order |
| Capture.RequeuedToSource | main.cpp:151-161 | every retrieved buffer is later requeued to the camera it came from |
| Capture.OneDeviceGates | main.cpp:150-152 | within one iteration a camera's gate is open only between its TransferStart and its TransferStop |
| Capture.OneGateAtATime | main.cpp:149-152 | at every point of the capture loop at most one camera may transmit, and all gates are closed at its end |
| Capture.StartStreams | main.cpp:100-104 | every stream is started, in device order |
| Capture.StopStreams | main.cpp:164-168 | every stream is stopped, in device order |
| Capture.LatchReadsClock | main.cpp:112-120 | on a well-formed node map the latched value read back is the camera's PTP clock |
| Capture.LatchTime | main.cpp:112-120 | latching and reading back succeed exactly when the latch is a command and the latched value reads; the result is then that value |
| Capture.FireAction | main.cpp:122-134 | the execute time is set to `ExecuteTimeFor(latch)`, the double-precision latch + 1000, and the command fired, exactly when both nodes allow it and the command is complete |
| Capture.ScheduleAction | main.cpp:106-134 | scheduling succeeds exactly when device 0 can latch and the system can schedule and fire. The command then fires at `ExecuteTimeFor` of device 0's latched time, and only device 0's node map changes, by the latch |
| Capture.TransferImage | main.cpp:149-152 | one gated retrieval: the oldest pending frame arrives exactly when both transfer commands exist and a frame is pending; the gate is closed again afterwards |
| Capture.SaveAndRequeue | main.cpp:155-161 | the image is saved as PNG, then as raw, then its buffer is requeued |
| Capture.CaptureImage | main.cpp:140-161 | one loop iteration succeeds exactly when the serial reads, both transfer commands exist and a frame is pending; its events are exactly the iteration's six |
| Capture.CaptureImages | main.cpp:139-162 | the capture loop succeeds exactly when every camera can be captured. Each shot is then the camera's serial number with its oldest frame; every camera has lost that frame, holds the buffers it held before and has its gate closed; the iterations are logged in device order |
| Capture.LatchKeepsCapture | main.cpp:112-115 | latching does not change a camera's serial number or whether it can be captured |
| Capture.LatchKeepsShots | main.cpp:112-162 | latching device 0 changes neither which cameras can be captured nor the shots the capture loop yields |
| Capture.Acquire | main.cpp:106-162 | scheduling and the capture loop together succeed exactly when each can on the node maps and frames at entry. Then the action fires at `ExecuteTimeFor` of device 0's latched time, and only device 0's node map changes, by the latch. Each shot is a camera's serial number with its oldest frame; every camera has lost that frame, holds its buffers as before and has its gate closed |
| Capture.Shoot | main.cpp:90-169 | shoot succeeds exactly when at least one camera exists and scheduling and capture can succeed. It then leaves the system map scheduled, only device 0's node map latched, one shot per camera, every gate closed and every stream stopped. Its events are the stream starts, the latch, the broadcast, the captures and the stream stops. No devices raises std::out_of_range |
| Acquisition.ConfiguredKeepsCapture | main.cpp:416-421 | preparation does not change a camera's serial number or whether it can be captured |
| Acquisition.ConfiguredKeepsLatch | main.cpp:416-421 | preparation does not change what a latch reads back |
| Acquisition.ConfiguredSchedulable | main.cpp:416-421 | after preparation the action can be scheduled exactly when the latch and the execute-time and fire nodes allow it |
| Acquisition.PreparedAccepts | main.cpp:128-134 | a prepared camera, latched or not, acts on any command with keys 1 and mask 1 |
| Acquisition.ShootPrepared | main.cpp:419-422 | shoot on prepared cameras succeeds under the conditions on the unprepared node maps. The command it fires is one every camera acts on, and the images are named after the original serial numbers. Afterwards device 0's node map is the prepared one latched and every other the prepared one, the system map is the prepared one with the execute time set, and every stream is stopped and every gate closed |
| Acquisition.Session | main.cpp:414-422 | preparation then shoot succeeds exactly when both can. It fires, at `ExecuteTimeFor` of device 0's latched time, a command every camera acts on. It leaves the node maps, stream node maps and system map prepared (device 0's latched, the system's scheduled), every stream stopped and every gate closed; the session's whole event sequence is stated |
| Acquisition.Run | main.cpp:391-441 | the exit code is 0 or -1, and 0 exactly when no camera exists or every step can succeed. With no camera nothing is touched. On success the command is scheduled at `ExecuteTimeFor` of device 0's clock and every camera acts on it. The node maps, stream node maps and system map are then the prepared ones (device 0's latched, the system's scheduled), and every stream is stopped and every gate closed |
| Polarization.EveryOther | extract.py:18 | `s[start::2]` has ⌈(n - start)/2⌉ elements, the i-th being s[2i + start] |
| Polarization.View | extract.py:18-27 | `image[r0::2, c0::2] >> 4` has the number of rows and the row lengths slicing gives; entry (i, j) is sample (2i + r0, 2j + c0) shifted right by 4 |
| Polarization.ExtractPolarizedBayer | extract.py:5-29 | 0° is taken from odd rows and odd columns, 45° from even rows and odd columns, 90° from even rows and even columns, 135° from odd rows and even columns, each sample shifted right by 4 |
| Polarization.ViewShapes | extract.py:16-27 | on an H×W frame the 90° view is ⌈H/2⌉×⌈W/2⌉, the 0° view ⌊H/2⌋×⌊W/2⌋, the 45° view ⌈H/2⌉×⌊W/2⌋ and the 135° view ⌊H/2⌋×⌈W/2⌉ |
| Polarization.SizeRectangular | extract.py:16-27 | a frame of rows of equal length w holds rows × w samples |
| Polarization.InView | extract.py:16-27 | every sample appears in the view of its row and column parities, at half its coordinates |
| Polarization.SizeSum | extract.py:16-27 | the four view sizes add up to H·W |
| Polarization.ViewsCoverFrame | extract.py:16-27 | the four views cover every sample of a frame exactly once, for even and for odd sizes alike |
| Polarization.Shr4Bounds | extract.py:18 | a 16-bit sample shifted right by 4 is at most 4095, and equals 4095 exactly when the sample is at least 65520 |
| Polarization.ViewBounded | extract.py:18-27 | every view of a 16-bit frame holds values of at most 4095 |
| Polarization.MaxOf | extract.py:53 | Python's max is defined exactly on a non-empty sequence, and is then one of its elements that none exceeds |
| Polarization.RowMaxima | extract.py:53 | the per-row maxima exist exactly when no row is empty, and are one per row |
| Polarization.MaxOfRowMaxima | extract.py:53 | the largest of the per-row maxima is a sample of the frame that no sample exceeds |
| Polarization.MaxPixel | extract.py:53 | the largest pixel is defined exactly on a frame with rows, none of them empty, and is then a sample that no sample exceeds |
| Polarization.CheckExposure | extract.py:53-58 | on the 0° view: a verdict exists exactly when the view has rows and none is empty; it warns only when 4095 is the 0° maximum (a 0° value that no 0° value exceeds); otherwise the printed maximum is a 0° value below 4095 that no 0° value exceeds |
| Polarization.SaturatedMax | extract.py:53-55 | a maximum of values of at most 4095 is 4095 exactly when some value is |
| Polarization.SaturatedSource | extract.py:18 | a saturated 0° value comes from an odd-row, odd-column sample of at least 65520 |
| Polarization.SaturatedTarget | extract.py:18 | an odd-row, odd-column sample of at least 65520 gives a saturated 0° value |
| Polarization.ExposureWarning | extract.py:50-58 | on a 16-bit frame the check reaches a verdict exactly when the frame is at least 2×2; it warns exactly when some 0° sample is at least 65520, and otherwise prints a maximum below 4095 |

## Left out

- PtpSync.WaitForPtpSync: polls at most `budget` rounds, where the program polls without bound until the cameras settle. Running out of rounds is the `NegotiationPending` failure, which `Acquisition.Run` maps to -1 like any other failure. The one-second sleep and the progress dots are not modelled.
- Acquisition.Run: the node maps do not change between polls in the model, so exit code 0 needs a negotiation that is already settled at the first poll. In the program the cameras converge while it keeps polling; that convergence comes from the cameras, not from the program, and is not modelled.
- Capture.Shoot: the frames and held buffers each camera has afterwards are stated by `Capture.Acquire`, which `Shoot` calls, and not repeated in `Shoot`'s own contract.
- Arena.GetImage: a camera's pending frames are an input fixed when the device is created. They do not depend on the action command: a camera that would ignore the broadcast still delivers its pending frame. The triggered exposure itself is the camera's doing. What the model does prove is that every prepared camera acts on the command that is fired (`Acquisition.ShootPrepared`, `Acquisition.Run`).
- Capture.Shoot: for the same reason, success does not depend on whether a camera acts on the fired command, only on its pending frames.
- Arena.Device, Arena.GetImage: transfer control is modelled as user-controlled from the start. A created device's gate is closed, and `GetImage` needs it open whatever `TransferControlMode` holds. In the program, synchronized cameras all transmit at once until `TransferControlMode` is `UserControlled`. So the model does not show that this write is what keeps the cameras from transmitting together: `Capture.OneGateAtATime` would hold without it, and `Prep.ConfiguredTransfer` states only that the write happens.
- Arena.StartStream, Arena.StopStream: starting and stopping a stream never fail in the model, while the SDK calls can throw and end the run with -1. The "exactly when" of `Capture.Shoot`, `Acquisition.Session` and `Acquisition.Run` holds only relative to that.
- Arena.SetNodeValue, NodeMaps.Writable: a write is rejected only when the node is missing or has another type (the layout). The camera's other rejections are not modelled, so write order never matters in the model:
  - a value out of the node's range (ExposureTime, Gain) or an enum entry the camera does not offer (PixelFormat `BayerRG16`);
  - a node made read-only by another node: ExposureTime and Gain stay locked until ExposureAuto and GainAuto are Off, which is why the program writes the Auto node first;
  - access blocked while the stream is running.
- Arena.SetStreamNodeValue, Arena.SetSystemNodeValue: the same layout-only acceptance.
- Selector-indexed features (ActionDeviceKey, ActionGroupKey and ActionGroupMask under ActionSelector; TriggerMode and TriggerSource under TriggerSelector) are single nodes. The "exactly when" of `Prep.PrepareDevice`, `Prep.SyncAndPrep` and `Acquisition.Run` is therefore relative to this layout-only acceptance.
- Arena.Device: the PTP clock does not advance during a run. The latched value is the clock when the latch runs, and the model states no relation between cameras' clocks.
- Sizes: the execute time is modelled in double arithmetic (`Doubles.ExecuteTimeFor`). The int64 range of the latch and of the converted sum, and the conversion of an out-of-range double, are not modelled.
- EXPOSURE_TIME is written as its value, 44000.0, inside the exposure table, and floating-point feature values are exact reals.
- `SaveImagePNG` and `SaveImageRAW`: the file encoding through the Save library and the image copy are foreign library calls. A save is a trace event naming the image and the file.
- Discovery and teardown (`OpenSystem`, `UpdateDevices`, `GetDevices`, `CreateDevice`, `DestroyDevice`) are I/O:
  - the devices arrive as a sequence of distinct objects, one per device info;
  - the system arrives as an object with its node map;
  - `DestroyDevice` is not modelled.
- The read-backs that only feed console output (exposure time, trigger source, PtpEnable, transfer modes) and the image timestamp are not modelled. Neither is any printed text, including the pixel-format messages.
- Threads: the print mutex and `PRINT_LOCK` are unused by the program's control flow.
- `debayer_16bit`, `cv2.imread` and the matplotlib display in `extract.py` are library calls.
- The script's frame is a 2-D array of non-negative integers. The 16-bit bound is a precondition of the lemmas that need it, not a property of the data type.
- Capture.PngName, Capture.RawName: carry no ensures of their own; the names they build are stated by `Capture.SerialOfName` and `Capture.NamesDistinct`.

=== FILE: acquisition.dfy ===
/** main: with the devices discovered on the network, prepare them, take one
    synchronised shot, and turn any exception into exit code -1. */
module Acquisition {
  import opened NodeMaps
  import opened Arena
  import PtpSync
  import opened Prep
  import opened Capture
  import opened Doubles

  /** The preparation leaves the serial number alone, so a camera can be
      captured after it exactly when it could before. */
  lemma ConfiguredKeepsCapture(m: NodeMap, schema: Schema, frames: seq<Image>)
    ensures ReadString(Configured(m), DeviceSerialNumber) == ReadString(m, DeviceSerialNumber)
    ensures Capturable(Configured(m), schema, frames) == Capturable(m, schema, frames)
  {
    ApplyUntouched(m, DeviceSettings, DeviceSerialNumber);
  }

  /** The preparation leaves the latched-value node alone, so a latch after it
      reads what it would have read before. */
  lemma ConfiguredKeepsLatch(m: NodeMap, schema: Schema, clock: int)
    ensures LatchReading(Configured(m), schema, clock) == LatchReading(m, schema, clock)
  {
    ApplyUntouched(m, DeviceSettings, PtpDataSetLatchValue);
  }

  /** On prepared node maps the action can be scheduled exactly when device 0
      can latch and be read back and the system has the execute-time and fire
      nodes: the broadcast fields themselves are always set by then. */
  lemma ConfiguredSchedulable(tl: NodeMap, tlSchema: Schema, m: NodeMap, schema: Schema, clock: int)
    ensures Schedulable(ConfiguredSystem(tl), tlSchema, Configured(m), schema, clock) <==>
            && Executable(schema, PtpDataSetLatch)
            && LatchReading(m, schema, clock).Ok?
            && Writable(tlSchema, ActionCommandExecuteTime, Int(0))
            && Executable(tlSchema, ActionCommandFireCommand)
  {
    ConfiguredKeepsLatch(m, schema, clock);
    if LatchReading(m, schema, clock).Ok? {
      ConfiguredBroadcast(tl, ExecuteTimeFor(LatchReading(m, schema, clock).value));
    }
  }

  /** A prepared camera, latched or not, acts on the broadcast the program
      sends: keys 1, group 1, mask 1. */
  lemma PreparedAccepts(m: NodeMap, n: NodeMap, schema: Schema, clock: int, spec: ActionSpec)
    requires n == Configured(m) || n == Latched(Configured(m), schema, clock)
    requires spec.deviceKey == 1 && spec.groupKey == 1 && spec.groupMask == 1
    ensures Accepts(n, spec)
  {
    AcceptsConfigured(m, spec);
    LatchKeepsAccepts(Configured(m), schema, clock, spec);
  }

  /** shoot gets through on these devices when their node maps before the
      preparation are `nodes` and their pending frames `frames`: device 0 can
      latch its clock and be read back, the system can schedule and fire, and
      every camera yields an image. */
  predicate Shootable(sys: System, devices: seq<Device>, nodes: seq<NodeMap>, frames: seq<seq<Image>>)
    reads devices`clock
  {
    && |nodes| == |frames| == |devices| > 0
    && Executable(devices[0].schema, PtpDataSetLatch)
    && LatchReading(nodes[0], devices[0].schema, devices[0].clock).Ok?
    && Writable(sys.schema, ActionCommandExecuteTime, Int(0))
    && Executable(sys.schema, ActionCommandFireCommand)
    && forall k :: 0 <= k < |devices| ==> Capturable(nodes[k], devices[k].schema, frames[k])
  }

  /** Every step of main after discovery succeeds on these devices; no
      devices at all also ends normally. */
  predicate Completes(sys: System, devices: seq<Device>, budget: nat)
    reads devices
  {
    |devices| > 0 ==> Prepares(sys, devices, budget) && Shootable(sys, devices, NodesOf(devices), FramesOf(devices))
  }

  /** The action command a successful shot fires, given the node maps
      `before` the cameras had before the preparation: device key 1, group
      key 1, group mask 1, every address, DELTA_TIME (in double arithmetic) after device 0's latched
      PTP time; and every camera, as it is now, acts on it. */
  predicate Broadcasts(devices: seq<Device>, before: seq<NodeMap>, spec: ActionSpec)
    reads devices`nodes, devices`clock
  {
    && |before| == |devices| > 0
    && spec.deviceKey == 1 && spec.groupKey == 1 && spec.groupMask == 1 && spec.targetIP == 0xFFFF_FFFF
    && LatchReading(before[0], devices[0].schema, devices[0].clock).Ok?
    && spec.executeTime == ExecuteTimeFor(LatchReading(before[0], devices[0].schema, devices[0].clock).value)
    && forall k :: 0 <= k < |devices| ==> Accepts(devices[k].nodes, spec)
  }

  /** The cameras and the system after a successful shot, given the node maps
      `before` and the system map `tl0` they had before the preparation:
      device 0's node map is prepared and latched, every other one prepared,
      the system map prepared and scheduled from device 0's latched time, and
      every stream stopped with its transfer gate closed. */
  predicate Finished(sys: System, devices: seq<Device>, before: seq<NodeMap>, tl0: NodeMap)
    reads sys`tl, devices`nodes, devices`clock, devices`streaming, devices`transmitting
  {
    && |before| == |devices| > 0
    && devices[0].nodes == Latched(Configured(before[0]), devices[0].schema, devices[0].clock)
    && (forall k :: 0 < k < |devices| ==> devices[k].nodes == Configured(before[k]))
    && sys.tl == Scheduled(ConfiguredSystem(tl0), LatchReading(before[0], devices[0].schema, devices[0].clock).GetOr(0))
    && forall k :: 0 <= k < |devices| ==> !devices[k].streaming && !devices[k].transmitting
  }

  /** shoot on cameras that sync_and_prep has prepared, stated against the node
      maps `before` and the system map `tl0` they had before the preparation:
      it succeeds exactly when device 0 can latch and be read back, the system
      can schedule and fire, and every camera yields an image; the action
      command it fires is then one every prepared camera acts on. */
  method ShootPrepared(sys: System, devices: seq<Device>, ghost before: seq<NodeMap>, ghost frames0: seq<seq<Image>>,
                       ghost tl0: NodeMap)
    returns (r: Outcome, ghost spec: ActionSpec, ghost shots: seq<Shot>)
    requires Distinct(devices) && |devices| > 0 && |before| == |devices| == |frames0|
    requires forall k :: 0 <= k < |devices| ==> devices[k].frames == frames0[k]
    requires forall k :: 0 <= k < |devices| ==> devices[k].nodes == Configured(before[k])
    requires sys.tl == ConfiguredSystem(tl0)
    modifies sys`trace, sys`tl, devices`nodes, devices`streaming, devices`transmitting, devices`frames, devices`held
    ensures r.Pass? <==> Shootable(sys, devices, before, frames0)
    ensures r.Pass? ==> Broadcasts(devices, before, spec)
    ensures r.Pass? ==> ShotsMatch(devices, before, frames0, shots)
    ensures r.Pass? ==> Finished(sys, devices, before, tl0)
    ensures r.Pass? ==> sys.trace == old(sys.trace) + ShotEvents(devices, spec, shots)
  {
    spec, shots := ActionSpec(0, 0, 0, 0, 0), [];
    ConfiguredSchedulable(tl0, sys.schema, before[0], devices[0].schema, devices[0].clock);
    ghost var nodes0 := seq(|before|, k requires 0 <= k < |before| => Configured(before[k]));
    forall k | 0 <= k < |devices|
      ensures Capturable(nodes0[k], devices[k].schema, frames0[k]) == Capturable(before[k], devices[k].schema, frames0[k])
      ensures ReadString(nodes0[k], DeviceSerialNumber) == ReadString(before[k], DeviceSerialNumber)
    {
      ConfiguredKeepsCapture(before[k], devices[k].schema, frames0[k]);
    }
    var latch, fired, taken;
    r, latch, fired, taken := Shoot(sys, devices, nodes0, frames0);
    if r.Fail? {
      return;
    }
    spec, shots := fired, taken;
    ConfiguredKeepsLatch(before[0], devices[0].schema, devices[0].clock);
    ConfiguredBroadcast(tl0, ExecuteTimeFor(latch));
    forall k | 0 <= k < |devices|
      ensures Accepts(devices[k].nodes, spec)
    {
      PreparedAccepts(before[k], devices[k].nodes, devices[k].schema, devices[k].clock, spec);
    }
  }

  /** The body of main's try block on at least one camera: sync_and_prep,
      then shoot; the first failure ends the session with its error. On
      success the action command fired is the one every prepared camera acts
      on, scheduled DELTA_TIME (in double arithmetic) after device 0's PTP time, and the session's
      events are exactly the preparation's TransferStops, the stream starts,
      the latch and the broadcast, each camera's capture in turn, and the
      stream stops. */
  method Session(sys: System, devices: seq<Device>, budget: nat, ghost before: seq<NodeMap>, ghost frames0: seq<seq<Image>>)
    returns (r: Outcome, ghost spec: ActionSpec, ghost shots: seq<Shot>)
    requires Distinct(devices) && |devices| > 0 && before == NodesOf(devices)
    requires |frames0| == |devices| && forall k :: 0 <= k < |devices| ==> devices[k].frames == frames0[k]
    modifies sys`trace, sys`tl, devices`nodes, devices`streamNodes, devices`streaming, devices`transmitting,
             devices`frames, devices`held
    ensures r.Pass? <==> old(Prepares(sys, devices, budget)) && Shootable(sys, devices, before, frames0)
    ensures r.Pass? ==> Broadcasts(devices, before, spec)
    ensures r.Pass? ==> ShotsMatch(devices, before, frames0, shots)
    ensures r.Pass? ==> Finished(sys, devices, before, old(sys.tl))
    ensures r.Pass? ==> forall k :: 0 <= k < |devices| ==> devices[k].streamNodes == ConfiguredStream(old(devices[k].streamNodes))
    ensures r.Pass? ==> sys.trace == old(sys.trace) + TransferStops(devices) + ShotEvents(devices, spec, shots)
  {
    spec, shots := ActionSpec(0, 0, 0, 0, 0), [];
    r := SyncAndPrep(sys, devices, budget);
    if r.Fail? {
      return;
    }
    r, spec, shots := ShootPrepared(sys, devices, before, frames0, old(sys.tl));
  }

  /** main after discovery: exit code 0 when no camera was found or the
      session succeeds, and -1 when any step of it fails, as main's catch of
      a GenICam exception does. On success, the session's guarantees, and
      the latched time is device 0's clock when its node map mirrors it. */
  method Run(sys: System, devices: seq<Device>, budget: nat) returns (code: int, ghost spec: ActionSpec, ghost shots: seq<Shot>)
    requires Distinct(devices)
    modifies sys`trace, sys`tl, devices`nodes, devices`streamNodes, devices`streaming, devices`transmitting,
             devices`frames, devices`held
    ensures code == 0 || code == -1
    ensures code == 0 <==> old(Completes(sys, devices, budget))
    ensures |devices| == 0 ==> sys.trace == old(sys.trace) && sys.tl == old(sys.tl)
    ensures code == 0 && |devices| > 0 ==>
              && spec.deviceKey == 1 && spec.groupKey == 1 && spec.groupMask == 1 && spec.targetIP == 0xFFFF_FFFF
              && spec.executeTime == ExecuteTimeFor(old(LatchReading(devices[0].nodes, devices[0].schema, devices[0].clock)).value)
              && (old(devices[0].Valid()) ==> spec.executeTime == ExecuteTimeFor(old(devices[0].clock)))
              && (forall k :: 0 <= k < |devices| ==> Accepts(devices[k].nodes, spec))
              && |shots| == |devices|
              && (forall k :: 0 <= k < |devices| ==>
                    shots[k] == Shot(devices[k], ReadString(old(devices[k].nodes), DeviceSerialNumber).value,
                                     old(devices[k].frames[0])))
              && sys.trace == old(sys.trace) + TransferStops(devices) + ShotEvents(devices, spec, shots)
    ensures code == 0 && |devices| > 0 ==> Finished(sys, devices, old(NodesOf(devices)), old(sys.tl))
    ensures code == 0 ==> forall k :: 0 <= k < |devices| ==> devices[k].streamNodes == ConfiguredStream(old(devices[k].streamNodes))
  {
    spec, shots := ActionSpec(0, 0, 0, 0, 0), [];
    if |devices| == 0 {
      return 0, spec, shots;
    }
    if devices[0].Valid() && LatchReading(devices[0].nodes, devices[0].schema, devices[0].clock).Ok? {
      LatchReadsClock(devices[0].nodes, devices[0].schema, devices[0].clock);
    }
    ghost var frames0 := FramesOf(devices);
    var r;
    r, spec, shots := Session(sys, devices, budget, NodesOf(devices), frames0);
    code := if r.Pass? then 0 else -1;
  }
}

=== FILE: arena.dfy ===
/** The camera SDK as the acquisition program sees it: a system with its
    transport-layer node map, devices with their node maps, streams and buffers,
    and the calls that read, write and execute nodes. Every command and image
    event is appended, in issue order, to the system's trace. */
module Arena {
  import opened NodeMaps

  /** A retrieved image buffer, by the properties the program inspects. */
  datatype Image = Image(timestamp: int, width: nat, height: nat, bitsPerPixel: nat)

  /** The fields of a broadcast action command, as read from the system node map
      when the command is fired. */
  datatype ActionSpec = ActionSpec(deviceKey: int, groupKey: int, groupMask: int, targetIP: int, executeTime: int)

  /** The observable events of a session, in the order they are issued. */
  datatype Event =
    | StreamStarted(device: Device)
    | StreamStopped(device: Device)
    | Executed(device: Device, command: Feature)
    | SystemExecuted(command: Feature)
    | Fired(spec: ActionSpec)
    | Retrieved(device: Device, timeoutMs: nat, image: Image)
    | Saved(image: Image, file: string)
    | Requeued(device: Device, image: Image)

  class Device {
    /** The layout of GetNodeMap(), the camera's features. */
    const schema: Schema
    /** The layout of GetTLStreamNodeMap(), the stream's transport-layer features. */
    const streamSchema: Schema
    /** The camera's feature values. */
    var nodes: NodeMap
    /** The stream's feature values. */
    var streamNodes: NodeMap
    /** The camera's PTP clock, as a latch would sample it now. */
    var clock: int
    /** Between StartStream and StopStream. */
    var streaming: bool
    /** Transfer control: the camera may transmit between TransferStart and TransferStop. */
    var transmitting: bool
    /** Frames the camera has captured and holds for transmission, oldest first. */
    var frames: seq<Image>
    /** Buffers handed to the application and not yet requeued. */
    var held: multiset<Image>

    /** Both node maps hold a value of the right type for every node they have. */
    predicate Valid()
      reads this
    {
      Conforms(nodes, schema) && Conforms(streamNodes, streamSchema)
    }

    constructor (schema: Schema, nodes: NodeMap, streamSchema: Schema, streamNodes: NodeMap, clock: int, frames: seq<Image>)
      requires Conforms(nodes, schema) && Conforms(streamNodes, streamSchema)
      ensures Valid()
      ensures this.schema == schema && this.streamSchema == streamSchema
      ensures this.nodes == nodes && this.streamNodes == streamNodes && this.clock == clock
      ensures this.frames == frames && held == multiset{}
      ensures !streaming && !transmitting
    {
      this.schema := schema;
      this.streamSchema := streamSchema;
      this.nodes := nodes;
      this.streamNodes := streamNodes;
      this.clock := clock;
      this.frames := frames;
      held := multiset{};
      streaming := false;
      transmitting := false;
    }
  }

  class System {
    /** The layout of GetTLSystemNodeMap(), the transport layer's features,
        including the broadcast action command. */
    const schema: Schema
    /** The transport layer's feature values. */
    var tl: NodeMap
    /** Commands and image events across the system and all devices, in order. */
    ghost var trace: seq<Event>

    predicate Valid()
      reads this`tl
    {
      Conforms(tl, schema)
    }

    constructor (schema: Schema, tl: NodeMap)
      requires Conforms(tl, schema)
      ensures Valid() && this.schema == schema && this.tl == tl && trace == []
    {
      this.schema := schema;
      this.tl := tl;
      trace := [];
    }
  }

  /** No device appears twice: each one was created from its own device info. */
  predicate Distinct(ds: seq<Device>) {
    forall i, j :: 0 <= i < j < |ds| ==> ds[i] != ds[j]
  }

  // ---------------------------------------------------------------------------
  // Action command acceptance (GigE Vision)

  /** Two non-negative masks have a set bit in common (their bitwise AND is not zero). */
  predicate SharesBit(a: nat, b: nat)
    decreases a
  {
    a > 0 && b > 0 && ((a % 2 == 1 && b % 2 == 1) || SharesBit(a / 2, b / 2))
  }

  /** A mask shares a bit with the mask 1 exactly when it is odd. */
  lemma SharesBitWithOne(b: nat)
    ensures SharesBit(1, b) <==> b % 2 == 1
  {
    assert !SharesBit(0, b / 2);
  }

  /** A device acts on a broadcast action command when the device key and group
      key equal its own and the group mask has a bit in common with its own. */
  predicate Accepts(m: NodeMap, spec: ActionSpec) {
    && m.Keys >= {ActionDeviceKey, ActionGroupKey, ActionGroupMask}
    && m[ActionDeviceKey] == Int(spec.deviceKey)
    && m[ActionGroupKey] == Int(spec.groupKey)
    && m[ActionGroupMask].Int? && m[ActionGroupMask].n >= 0 && spec.groupMask >= 0
    && SharesBit(m[ActionGroupMask].n, spec.groupMask)
  }

  /** The broadcast action command the system sends when fired: the five action
      fields of its node map, each of which must be an integer node. */
  function BroadcastSpec(tl: NodeMap): (r: Result<ActionSpec>)
    ensures r.Ok? <==> forall f :: f in ActionCommandFields ==> ReadInt(tl, f).Ok?
    ensures r.Ok? ==> r.value.deviceKey == ReadInt(tl, ActionCommandDeviceKey).value
    ensures r.Ok? ==> r.value.groupKey == ReadInt(tl, ActionCommandGroupKey).value
    ensures r.Ok? ==> r.value.groupMask == ReadInt(tl, ActionCommandGroupMask).value
    ensures r.Ok? ==> r.value.targetIP == ReadInt(tl, ActionCommandTargetIP).value
    ensures r.Ok? ==> r.value.executeTime == ReadInt(tl, ActionCommandExecuteTime).value
  {
    var deviceKey :- ReadInt(tl, ActionCommandDeviceKey);
    var groupKey :- ReadInt(tl, ActionCommandGroupKey);
    var groupMask :- ReadInt(tl, ActionCommandGroupMask);
    var targetIP :- ReadInt(tl, ActionCommandTargetIP);
    var executeTime :- ReadInt(tl, ActionCommandExecuteTime);
    Ok(ActionSpec(deviceKey, groupKey, groupMask, targetIP, executeTime))
  }

  const ActionCommandFields: set<Feature> :=
    {ActionCommandDeviceKey, ActionCommandGroupKey, ActionCommandGroupMask, ActionCommandTargetIP, ActionCommandExecuteTime}

  /** Regrouping appended events; a trace grows by appending. A proof step
      only: it models nothing in the program, and saves the solver work in
      the capture loop. */
  lemma AppendAssoc(a: seq<Event>, b: seq<Event>, c: seq<Event>)
    ensures (a + b) + c == a + (b + c)
  {
  }

  // ---------------------------------------------------------------------------
  // SDK calls

  /** SetNodeValue on a device's node map. */
  method SetNodeValue(d: Device, f: Feature, v: Value) returns (r: Outcome)
    modifies d`nodes
    ensures r == (if Writable(d.schema, f, v) then Pass else Fail(AccessError(d.schema, f)))
    ensures d.nodes == if r.Pass? then old(d.nodes)[f := v] else old(d.nodes)
    ensures old(d.Valid()) ==> d.Valid()
  {
    if Writable(d.schema, f, v) {
      d.nodes := d.nodes[f := v];
      r := Pass;
    } else {
      r := Fail(AccessError(d.schema, f));
    }
  }

  /** SetNodeValue on a device's transport-layer stream node map. */
  method SetStreamNodeValue(d: Device, f: Feature, v: Value) returns (r: Outcome)
    modifies d`streamNodes
    ensures r == (if Writable(d.streamSchema, f, v) then Pass else Fail(AccessError(d.streamSchema, f)))
    ensures d.streamNodes == if r.Pass? then old(d.streamNodes)[f := v] else old(d.streamNodes)
    ensures old(d.Valid()) ==> d.Valid()
  {
    if Writable(d.streamSchema, f, v) {
      d.streamNodes := d.streamNodes[f := v];
      r := Pass;
    } else {
      r := Fail(AccessError(d.streamSchema, f));
    }
  }

  /** SetNodeValue on the system's transport-layer node map. */
  method SetSystemNodeValue(sys: System, f: Feature, v: Value) returns (r: Outcome)
    modifies sys`tl
    ensures r == (if Writable(sys.schema, f, v) then Pass else Fail(AccessError(sys.schema, f)))
    ensures sys.tl == if r.Pass? then old(sys.tl)[f := v] else old(sys.tl)
    ensures old(sys.Valid()) ==> sys.Valid()
  {
    if Writable(sys.schema, f, v) {
      sys.tl := sys.tl[f := v];
      r := Pass;
    } else {
      r := Fail(AccessError(sys.schema, f));
    }
  }

  /** What executing PtpDataSetLatch does to a camera's values: the PTP clock
      is sampled into PtpDataSetLatchValue, where the camera has that node. */
  function Latched(m: NodeMap, schema: Schema, clock: int): NodeMap {
    if Writable(schema, PtpDataSetLatchValue, Int(clock)) then m[PtpDataSetLatchValue := Int(clock)] else m
  }

  /** Latching touches none of the action keys, so a device acts on the same
      action commands after it. */
  lemma LatchKeepsAccepts(m: NodeMap, schema: Schema, clock: int, spec: ActionSpec)
    ensures Accepts(Latched(m, schema, clock), spec) == Accepts(m, spec)
  {
  }

  /** ExecuteNode on a device's node map. PtpDataSetLatch samples the PTP clock;
      TransferStart and TransferStop open and close the transfer-control gate. */
  method ExecuteNode(sys: System, d: Device, f: Feature) returns (r: Outcome)
    modifies sys`trace
    modifies (if f == PtpDataSetLatch then {d} else {})`nodes
    modifies (if f == TransferStart || f == TransferStop then {d} else {})`transmitting
    ensures r == (if Executable(d.schema, f) then Pass else Fail(AccessError(d.schema, f)))
    ensures sys.trace == old(sys.trace) + (if r.Pass? then [Executed(d, f)] else [])
    ensures d.nodes == if r.Pass? && f == PtpDataSetLatch then Latched(old(d.nodes), d.schema, d.clock) else old(d.nodes)
    ensures d.transmitting == if r.Pass? && f == TransferStart then true
                              else if r.Pass? && f == TransferStop then false
                              else old(d.transmitting)
    ensures old(d.Valid()) ==> d.Valid()
  {
    if !Executable(d.schema, f) {
      return Fail(AccessError(d.schema, f));
    }
    if f == PtpDataSetLatch {
      d.nodes := Latched(d.nodes, d.schema, d.clock);
    } else if f == TransferStart {
      d.transmitting := true;
    } else if f == TransferStop {
      d.transmitting := false;
    }
    sys.trace := sys.trace + [Executed(d, f)];
    r := Pass;
  }

  /** ExecuteNode on the system's node map. ActionCommandFireCommand broadcasts
      the action command its node map currently describes. */
  method ExecuteSystemNode(sys: System, f: Feature) returns (r: Outcome)
    modifies sys`trace
    ensures !Executable(sys.schema, f) ==> r == Fail(AccessError(sys.schema, f))
    ensures Executable(sys.schema, f) && f == ActionCommandFireCommand ==>
              r == (if BroadcastSpec(sys.tl).Ok? then Pass else Fail(BroadcastSpec(sys.tl).error))
    ensures Executable(sys.schema, f) && f != ActionCommandFireCommand ==> r == Pass
    ensures sys.trace == old(sys.trace) + (if r.Fail? then []
                                           else if f == ActionCommandFireCommand then [Fired(BroadcastSpec(sys.tl).value)]
                                           else [SystemExecuted(f)])
  {
    if !Executable(sys.schema, f) {
      return Fail(AccessError(sys.schema, f));
    }
    if f == ActionCommandFireCommand {
      var spec := BroadcastSpec(sys.tl);
      if spec.Err? {
        return Fail(spec.error);
      }
      sys.trace := sys.trace + [Fired(spec.value)];
    } else {
      sys.trace := sys.trace + [SystemExecuted(f)];
    }
    r := Pass;
  }

  /** IDevice::StartStream. */
  method StartStream(sys: System, d: Device)
    modifies sys`trace, d`streaming
    ensures d.streaming
    ensures sys.trace == old(sys.trace) + [StreamStarted(d)]
  {
    d.streaming := true;
    sys.trace := sys.trace + [StreamStarted(d)];
  }

  /** IDevice::StopStream. */
  method StopStream(sys: System, d: Device)
    modifies sys`trace, d`streaming
    ensures !d.streaming
    ensures sys.trace == old(sys.trace) + [StreamStopped(d)]
  {
    d.streaming := false;
    sys.trace := sys.trace + [StreamStopped(d)];
  }

  /** IDevice::GetImage(timeout): the oldest held frame, which reaches the host
      only while the stream runs and the transfer gate is open; otherwise the
      call times out. */
  method GetImage(sys: System, d: Device, timeoutMs: nat) returns (r: Result<Image>)
    modifies sys`trace, d`frames, d`held
    ensures r.Ok? <==> old(d.streaming && d.transmitting && d.frames != [])
    ensures !d.streaming ==> r == Err(NotStreaming)
    ensures d.streaming && r.Err? ==> r == Err(Timeout)
    ensures r.Ok? ==> && r.value == old(d.frames[0])
                      && d.frames == old(d.frames[1..])
                      && d.held == old(d.held) + multiset{r.value}
                      && sys.trace == old(sys.trace) + [Retrieved(d, timeoutMs, r.value)]
    ensures r.Err? ==> d.frames == old(d.frames) && d.held == old(d.held) && sys.trace == old(sys.trace)
  {
    if !d.streaming {
      return Err(NotStreaming);
    }
    if !d.transmitting || d.frames == [] {
      return Err(Timeout);
    }
    var image := d.frames[0];
    d.frames := d.frames[1..];
    d.held := d.held + multiset{image};
    sys.trace := sys.trace + [Retrieved(d, timeoutMs, image)];
    r := Ok(image);
  }

  /** IDevice::RequeueBuffer: gives a buffer back to the device it came from. */
  method RequeueBuffer(sys: System, d: Device, image: Image) returns (r: Outcome)
    modifies sys`trace, d`held
    ensures r.Pass? <==> image in old(d.held)
    ensures r.Fail? ==> r.error == BufferNotHeld && d.held == old(d.held) && sys.trace == old(sys.trace)
    ensures r.Pass? ==> d.held == old(d.held) - multiset{image}
                        && sys.trace == old(sys.trace) + [Requeued(d, image)]
  {
    if image !in d.held {
      return Fail(BufferNotHeld);
    }
    d.held := d.held - multiset{image};
    sys.trace := sys.trace + [Requeued(d, image)];
    r := Pass;
  }

  /** SaveImagePNG / SaveImageRAW: the file encoding is the Save library's; the
      model records which image went to which file. */
  method SaveImage(sys: System, image: Image, file: string)
    modifies sys`trace
    ensures sys.trace == old(sys.trace) + [Saved(image, file)]
  {
    sys.trace := sys.trace + [Saved(image, file)];
  }
}

=== FILE: capture.dfy ===
/** shoot: start every stream, schedule one action command a fixed delay after
    device 0's PTP time and broadcast it, then release the cameras one at a
    time with transfer control, retrieving, saving and requeueing each image,
    and finally stop every stream. */
module Capture {
  import opened NodeMaps
  import opened Arena
  import opened Doubles

  /** The prefix of every output file. */
  const FILE_NAME: string := "Images/image_"

  /** The timeout of each GetImage, in milliseconds. */
  const IMAGE_TIMEOUT: nat := 3000

  // ---------------------------------------------------------------------------
  // Output files

  /** The PNG file of the image from the camera with this serial number. */
  function PngName(serial: string): string {
    FILE_NAME + serial + ".png"
  }

  /** The raw file of the image from the camera with this serial number. */
  function RawName(serial: string): string {
    FILE_NAME + serial + ".raw"
  }

  /** A file name is the directory prefix, the serial number, then ".png" or
      ".raw". */
  lemma SerialOfName(serial: string)
    ensures |PngName(serial)| == |RawName(serial)| == |FILE_NAME| + |serial| + 4
    ensures PngName(serial)[..|FILE_NAME|] == RawName(serial)[..|FILE_NAME|] == FILE_NAME
    ensures PngName(serial)[|FILE_NAME|..|FILE_NAME| + |serial|] == serial
    ensures RawName(serial)[|FILE_NAME|..|FILE_NAME| + |serial|] == serial
    ensures PngName(serial)[|FILE_NAME| + |serial|..] == ".png"
    ensures RawName(serial)[|FILE_NAME| + |serial|..] == ".raw"
  {
  }

  /** Distinct serial numbers give distinct files, and no PNG file is ever
      a raw file, so no image overwrites another. */
  lemma {:induction false} NamesDistinct(a: string, b: string)
    ensures PngName(a) == PngName(b) <==> a == b
    ensures RawName(a) == RawName(b) <==> a == b
    ensures PngName(a) != RawName(b)
  {
    SerialOfName(a);
    SerialOfName(b);
    var pa, rb := PngName(a), RawName(b);
    assert pa[|pa| - 1] == 'g';
    assert rb[|rb| - 1] == 'w';
  }

  // ---------------------------------------------------------------------------
  // What the capture loop does, as events

  /** One pass of the capture loop: the device, the serial number it reported
      and the image retrieved from it. */
  datatype Shot = Shot(device: Device, serial: string, image: Image)

  /** A camera whose capture iteration has not run yet: its frames and held
      buffers are as they were. */
  predicate Pending(d: Device, frames: seq<Image>, held: multiset<Image>)
    reads d`frames, d`held
  {
    d.frames == frames && d.held == held
  }

  /** No device's transfer gate is open. */
  predicate Closed(devices: seq<Device>)
    reads devices`transmitting
  {
    forall k :: 0 <= k < |devices| ==> !devices[k].transmitting
  }

  /** A camera after its capture iteration, given its frames and held buffers
      before: its oldest frame is gone, every buffer it lent is back, and its
      gate is closed. */
  predicate Released(d: Device, frames: seq<Image>, held: multiset<Image>)
    reads d`frames, d`held, d`transmitting
  {
    frames != [] && d.frames == frames[1..] && d.held == held && !d.transmitting
  }

  /** A camera after its capture iteration, given its frames and held buffers
      before: it could be captured, `shot` is its serial number with its
      oldest frame, and it is released. */
  predicate CapturedAs(d: Device, shot: Shot, frames: seq<Image>, held: multiset<Image>)
    reads d`nodes, d`frames, d`held, d`transmitting
  {
    && Capturable(d.nodes, d.schema, frames)
    && shot == Shot(d, ReadString(d.nodes, DeviceSerialNumber).value, frames[0])
    && Released(d, frames, held)
  }

  /** One iteration of the capture loop: release the device's transfer gate,
      retrieve the image, close the gate, save the image twice, give the
      buffer back. */
  function CaptureEvents(s: Shot): seq<Event> {
    [Executed(s.device, TransferStart), Retrieved(s.device, IMAGE_TIMEOUT, s.image), Executed(s.device, TransferStop),
     Saved(s.image, PngName(s.serial)), Saved(s.image, RawName(s.serial)), Requeued(s.device, s.image)]
  }

  /** The capture loop over all devices, in device order. */
  function CaptureAll(shots: seq<Shot>): (t: seq<Event>)
    ensures |t| == 6 * |shots|
  {
    if shots == [] then []
    else CaptureAll(shots[..|shots| - 1]) + CaptureEvents(shots[|shots| - 1])
  }

  lemma CaptureAllSnoc(shots: seq<Shot>, s: Shot)
    ensures CaptureAll(shots + [s]) == CaptureAll(shots) + CaptureEvents(s)
  {
    assert (shots + [s])[..|shots|] == shots;
  }

  /** Device i's six events occupy positions 6i to 6i+5: its TransferStop and
      its requeue come before device i+1's TransferStart. */
  lemma {:induction false} CaptureAt(shots: seq<Shot>, i: nat)
    requires i < |shots|
    ensures CaptureAll(shots)[6 * i .. 6 * i + 6] == CaptureEvents(shots[i])
  {
    var n := |shots| - 1;
    var prefix := CaptureAll(shots[..n]);
    assert CaptureAll(shots) == prefix + CaptureEvents(shots[n]);
    if i < n {
      CaptureAt(shots[..n], i);
      assert CaptureAll(shots)[6 * i .. 6 * i + 6] == prefix[6 * i .. 6 * i + 6];
    } else {
      assert CaptureAll(shots)[6 * i ..] == CaptureEvents(shots[i]);
    }
  }

  /** Every retrieved buffer is requeued later, to the device it came from. */
  lemma RequeuedToSource(shots: seq<Shot>, p: nat)
    requires p < |CaptureAll(shots)| && CaptureAll(shots)[p].Retrieved?
    ensures var t := CaptureAll(shots);
            exists q :: p < q < |t| && t[q] == Requeued(t[p].device, t[p].image)
  {
    var t := CaptureAll(shots);
    var i, j := p / 6, p % 6;
    assert p == 6 * i + j;
    CaptureAt(shots, i);
    var block := t[6 * i .. 6 * i + 6];
    assert t[p] == block[j];
    assert j == 1;
    assert t[6 * i + 5] == block[5];
  }

  // ---------------------------------------------------------------------------
  // Transfer gates along a trace

  /** The devices whose transfer gate is open after `e`. */
  function GateStep(open: set<Device>, e: Event): set<Device> {
    match e
    case Executed(d, c) =>
      if c == TransferStart then open + {d} else if c == TransferStop then open - {d} else open
    case _ => open
  }

  /** The devices whose transfer gate is open after the events of `t`. */
  function OpenGates(open: set<Device>, t: seq<Event>): set<Device>
    decreases |t|
  {
    if t == [] then open else OpenGates(GateStep(open, t[0]), t[1..])
  }

  lemma {:induction false} OpenGatesConcat(open: set<Device>, a: seq<Event>, b: seq<Event>)
    ensures OpenGates(open, a + b) == OpenGates(OpenGates(open, a), b)
    decreases |a|
  {
    if a == [] {
      assert a + b == b;
    } else {
      assert (a + b)[1..] == a[1..] + b;
      OpenGatesConcat(GateStep(open, a[0]), a[1..], b);
    }
  }

  lemma OpenGatesSnoc(open: set<Device>, a: seq<Event>, e: Event)
    ensures OpenGates(open, a + [e]) == GateStep(OpenGates(open, a), e)
  {
    OpenGatesConcat(open, a, [e]);
    assert [e][1..] == [];
  }

  /** Within one device's events, its gate is open exactly between its
      TransferStart and its TransferStop, and no other gate ever is. */
  lemma {:induction false} OneDeviceGates(s: Shot, j: nat)
    requires j <= 6
    ensures OpenGates({}, CaptureEvents(s)[..j]) == if 1 <= j <= 2 then {s.device} else {}
  {
    if j > 0 {
      var e := CaptureEvents(s);
      OneDeviceGates(s, j - 1);
      assert e[..j] == e[..j - 1] + [e[j - 1]];
      OpenGatesSnoc({}, e[..j - 1], e[j - 1]);
    }
  }

  /** Transfer control lets at most one camera transmit at any moment of the
      capture loop, and leaves every gate closed when the loop is done. */
  lemma {:induction false} OneGateAtATime(shots: seq<Shot>, n: nat)
    requires n <= |CaptureAll(shots)|
    ensures |OpenGates({}, CaptureAll(shots)[..n])| <= 1
    ensures OpenGates({}, CaptureAll(shots)) == {}
  {
    var t := CaptureAll(shots);
    if shots == [] {
      assert t[..n] == [];
      return;
    }
    var k := |shots| - 1;
    var prefix := CaptureAll(shots[..k]);
    var last := CaptureEvents(shots[k]);
    assert t == prefix + last;
    OneGateAtATime(shots[..k], |prefix|);
    assert prefix[..|prefix|] == prefix;
    OpenGatesConcat({}, prefix, last);
    OneDeviceGates(shots[k], 6);
    assert last[..6] == last;
    if n <= |prefix| {
      assert t[..n] == prefix[..n];
      OneGateAtATime(shots[..k], n);
    } else {
      var j := n - |prefix|;
      assert t[..n] == prefix + last[..j];
      OpenGatesConcat({}, prefix, last[..j]);
      OneDeviceGates(shots[k], j);
    }
  }

  // ---------------------------------------------------------------------------
  // Streams

  /** A StreamStarted event for each device, in order. */
  function StartAll(ds: seq<Device>): seq<Event> {
    seq(|ds|, k requires 0 <= k < |ds| => StreamStarted(ds[k]))
  }

  /** A StreamStopped event for each device, in order. */
  function StopAll(ds: seq<Device>): seq<Event> {
    seq(|ds|, k requires 0 <= k < |ds| => StreamStopped(ds[k]))
  }

  /** The first loop of shoot: StartStream on every device. */
  method StartStreams(sys: System, devices: seq<Device>)
    modifies sys`trace, devices`streaming
    ensures forall k :: 0 <= k < |devices| ==> devices[k].streaming
    ensures sys.trace == old(sys.trace) + StartAll(devices)
  {
    ghost var started := [];
    var i := 0;
    while i < |devices|
      invariant 0 <= i <= |devices|
      invariant forall k :: 0 <= k < i ==> devices[k].streaming
      invariant |started| == i && forall k :: 0 <= k < i ==> started[k] == StreamStarted(devices[k])
      invariant sys.trace == old(sys.trace) + started
    {
      StartStream(sys, devices[i]);
      started := started + [StreamStarted(devices[i])];
      i := i + 1;
    }
    assert started == StartAll(devices);
  }

  /** The last loop of shoot: StopStream on every device. */
  method StopStreams(sys: System, devices: seq<Device>)
    modifies sys`trace, devices`streaming
    ensures forall k :: 0 <= k < |devices| ==> !devices[k].streaming
    ensures Closed(devices) <==> old(Closed(devices))
    ensures sys.trace == old(sys.trace) + StopAll(devices)
  {
    ghost var stopped := [];
    var i := 0;
    while i < |devices|
      invariant 0 <= i <= |devices|
      invariant forall k :: 0 <= k < i ==> !devices[k].streaming
      invariant |stopped| == i && forall k :: 0 <= k < i ==> stopped[k] == StreamStopped(devices[k])
      invariant sys.trace == old(sys.trace) + stopped
    {
      StopStream(sys, devices[i]);
      stopped := stopped + [StreamStopped(devices[i])];
      i := i + 1;
    }
    assert stopped == StopAll(devices);
  }

  // ---------------------------------------------------------------------------
  // Scheduling the action command

  /** What GetNodeValue<int64_t>(PtpDataSetLatchValue) returns right after
      PtpDataSetLatch on a camera with these values, layout and clock. */
  function LatchReading(nodes: NodeMap, schema: Schema, clock: int): Result<int> {
    ReadInt(Latched(nodes, schema, clock), PtpDataSetLatchValue)
  }

  /** The system node map once the execute time is set from a latched time. */
  function Scheduled(tl: NodeMap, latch: int): NodeMap {
    tl[ActionCommandExecuteTime := Int(ExecuteTimeFor(latch))]
  }

  /** Every step of the scheduling succeeds: the latch command exists, the
      latched value reads as an integer, the execute time accepts an integer,
      the fire command exists, and the action fields then all read. */
  predicate Schedulable(tl: NodeMap, tlSchema: Schema, nodes: NodeMap, schema: Schema, clock: int) {
    && Executable(schema, PtpDataSetLatch)
    && LatchReading(nodes, schema, clock).Ok?
    && Writable(tlSchema, ActionCommandExecuteTime, Int(0))
    && Executable(tlSchema, ActionCommandFireCommand)
    && BroadcastSpec(Scheduled(tl, LatchReading(nodes, schema, clock).value)).Ok?
  }

  /** On a camera whose values fit its layout, the latched reading is the
      camera's PTP time. */
  lemma LatchReadsClock(nodes: NodeMap, schema: Schema, clock: int)
    requires Conforms(nodes, schema)
    requires LatchReading(nodes, schema, clock).Ok?
    ensures LatchReading(nodes, schema, clock).value == clock
  {
    assert PtpDataSetLatchValue in nodes;
  }

  /** Latch the camera's PTP clock and read back the latched value. */
  method LatchTime(sys: System, d: Device) returns (r: Result<int>)
    modifies sys`trace, d`nodes
    ensures r.Ok? <==> Executable(d.schema, PtpDataSetLatch) && old(LatchReading(d.nodes, d.schema, d.clock)).Ok?
    ensures r.Ok? ==> && r == old(LatchReading(d.nodes, d.schema, d.clock))
                      && d.nodes == Latched(old(d.nodes), d.schema, d.clock)
                      && sys.trace == old(sys.trace) + [Executed(d, PtpDataSetLatch)]
  {
    var latched := ExecuteNode(sys, d, PtpDataSetLatch);
    if latched.Fail? {
      return Err(latched.error);
    }
    r := ReadInt(d.nodes, PtpDataSetLatchValue);
  }

  /** Set the action's execute time DELTA_TIME after the latched time, in
      double arithmetic, and broadcast the action command. */
  method FireAction(sys: System, latch: int) returns (r: Outcome, spec: ActionSpec)
    modifies sys`trace, sys`tl
    ensures r.Pass? <==> && Writable(sys.schema, ActionCommandExecuteTime, Int(0))
                         && Executable(sys.schema, ActionCommandFireCommand)
                         && BroadcastSpec(Scheduled(old(sys.tl), latch)).Ok?
    ensures r.Pass? ==> && sys.tl == Scheduled(old(sys.tl), latch)
                        && spec == BroadcastSpec(sys.tl).value
                        && spec.executeTime == ExecuteTimeFor(latch)
                        && sys.trace == old(sys.trace) + [Fired(spec)]
  {
    spec := ActionSpec(0, 0, 0, 0, 0);
    :- SetSystemNodeValue(sys, ActionCommandExecuteTime, Int(ExecuteTimeFor(latch)));
    :- ExecuteSystemNode(sys, ActionCommandFireCommand);
    spec := BroadcastSpec(sys.tl).value;
    r := Pass;
  }

  /** Latch device 0's PTP clock, read the latched value, set the action's
      execute time DELTA_TIME later, and fire the action command. */
  method ScheduleAction(sys: System, d: Device) returns (r: Outcome, latch: int, spec: ActionSpec)
    modifies sys`trace, sys`tl, d`nodes
    ensures r.Pass? <==> old(Schedulable(sys.tl, sys.schema, d.nodes, d.schema, d.clock))
    ensures r.Pass? ==> && d.nodes == Latched(old(d.nodes), d.schema, d.clock)
                        && latch == old(LatchReading(d.nodes, d.schema, d.clock)).value
                        && sys.tl == Scheduled(old(sys.tl), latch)
                        && spec == BroadcastSpec(sys.tl).value
                        && spec.executeTime == ExecuteTimeFor(latch)
                        && sys.trace == old(sys.trace) + [Executed(d, PtpDataSetLatch), Fired(spec)]
  {
    latch, spec := 0, ActionSpec(0, 0, 0, 0, 0);
    var reading := LatchTime(sys, d);
    if reading.Err? {
      return Fail(reading.error), latch, spec;
    }
    latch := reading.value;
    r, spec := FireAction(sys, latch);
  }

  // ---------------------------------------------------------------------------
  // The capture loop

  /** Every step of one capture iteration succeeds on a streaming camera: the
      serial number reads, both transfer commands exist, and the camera holds
      a frame. */
  predicate Capturable(nodes: NodeMap, schema: Schema, frames: seq<Image>) {
    && ReadString(nodes, DeviceSerialNumber).Ok?
    && Executable(schema, TransferStart)
    && Executable(schema, TransferStop)
    && frames != []
  }

  /** The transfer-controlled retrieval of one image: open the camera's gate,
      GetImage with the loop's timeout, close the gate. */
  method TransferImage(sys: System, d: Device) returns (r: Result<Image>)
    requires d.streaming
    modifies sys`trace, d`transmitting, d`frames, d`held
    ensures r.Ok? <==> && Executable(d.schema, TransferStart) && Executable(d.schema, TransferStop)
                       && old(d.frames) != []
    ensures r.Ok? ==> && r.value == old(d.frames[0])
                      && d.frames == old(d.frames[1..])
                      && d.held == old(d.held) + multiset{r.value}
                      && !d.transmitting
                      && sys.trace == old(sys.trace) + [Executed(d, TransferStart), Retrieved(d, IMAGE_TIMEOUT, r.value),
                                                        Executed(d, TransferStop)]
  {
    var gate := ExecuteNode(sys, d, TransferStart);
    if gate.Fail? {
      return Err(gate.error);
    }
    r := GetImage(sys, d, IMAGE_TIMEOUT);
    if r.Err? {
      return;
    }
    var shut := ExecuteNode(sys, d, TransferStop);
    if shut.Fail? {
      return Err(shut.error);
    }
  }

  /** Save a retrieved image as PNG and as raw under names built from the
      camera's serial number, then give its buffer back. */
  method SaveAndRequeue(sys: System, d: Device, serial: string, image: Image) returns (r: Outcome)
    requires image in d.held
    modifies sys`trace, d`held
    ensures r.Pass?
    ensures d.held == old(d.held) - multiset{image}
    ensures sys.trace == old(sys.trace) + [Saved(image, PngName(serial)), Saved(image, RawName(serial)), Requeued(d, image)]
  {
    SaveImage(sys, image, PngName(serial));
    SaveImage(sys, image, RawName(serial));
    r := RequeueBuffer(sys, d, image);
  }

  /** One iteration of the capture loop: read the serial number, retrieve the
      image through the transfer gate, save it and requeue its buffer. */
  method CaptureImage(sys: System, d: Device) returns (r: Outcome, shot: Shot)
    requires d.streaming
    modifies sys`trace, d`transmitting, d`frames, d`held
    ensures r.Pass? <==> Capturable(d.nodes, d.schema, old(d.frames))
    ensures r.Pass? ==> && CapturedAs(d, shot, old(d.frames), old(d.held))
                        && sys.trace == old(sys.trace) + CaptureEvents(shot)
  {
    shot := Shot(d, "", Image(0, 0, 0, 0));
    var serial := ReadString(d.nodes, DeviceSerialNumber);
    if serial.Err? {
      return Fail(serial.error), shot;
    }
    var image := TransferImage(sys, d);
    if image.Err? {
      return Fail(image.error), shot;
    }
    shot := Shot(d, serial.value, image.value);
    r := SaveAndRequeue(sys, d, serial.value, image.value);
    assert d.held == old(d.held);
  }

  /** The capture loop of shoot, over every device in order; the first failure
      (a missing node or a GetImage timeout) aborts it. The ghost `nodes` and
      `frames` name the devices' node maps and pending frames on entry. */
  method CaptureImages(sys: System, devices: seq<Device>, ghost nodes: seq<NodeMap>, ghost frames: seq<seq<Image>>)
    returns (r: Outcome, shots: seq<Shot>)
    requires Distinct(devices)
    requires forall k :: 0 <= k < |devices| ==> devices[k].streaming
    requires Snapshot(devices, nodes, frames)
    modifies sys`trace, devices`transmitting, devices`frames, devices`held
    ensures r.Pass? <==> forall k :: 0 <= k < |devices| ==> Capturable(nodes[k], devices[k].schema, frames[k])
    ensures r.Pass? ==> && ShotsMatch(devices, nodes, frames, shots)
                        && (forall k :: 0 <= k < |devices| ==> Released(devices[k], frames[k], old(devices[k].held)))
                        && Closed(devices)
                        && sys.trace == old(sys.trace) + CaptureAll(shots)
  {
    shots := [];
    var i := 0;
    while i < |devices|
      invariant 0 <= i <= |devices|
      invariant |shots| == i
      invariant forall k :: 0 <= k < |devices| ==>
                  if k < i then CapturedAs(devices[k], shots[k], frames[k], old(devices[k].held))
                  else Pending(devices[k], frames[k], old(devices[k].held))
      invariant sys.trace == old(sys.trace) + CaptureAll(shots)
    {
      var shot;
      r, shot := CaptureImage(sys, devices[i]);
      if r.Fail? {
        return;
      }
      CaptureAllSnoc(shots, shot);
      AppendAssoc(old(sys.trace), CaptureAll(shots), CaptureEvents(shot));
      shots := shots + [shot];
      forall k | 0 <= k < |devices|
        ensures if k <= i then CapturedAs(devices[k], shots[k], frames[k], old(devices[k].held))
                else Pending(devices[k], frames[k], old(devices[k].held))
      {
        if k != i {
          assert devices[k] != devices[i];
        }
      }
      i := i + 1;
    }
    r := Pass;
  }

  // ---------------------------------------------------------------------------
  // shoot

  /** Latching only fills PtpDataSetLatchValue: the serial number and every
      capture precondition read the same afterwards. */
  lemma LatchKeepsCapture(nodes: NodeMap, schema: Schema, clock: int, frames: seq<Image>)
    ensures ReadString(Latched(nodes, schema, clock), DeviceSerialNumber) == ReadString(nodes, DeviceSerialNumber)
    ensures Capturable(Latched(nodes, schema, clock), schema, frames) == Capturable(nodes, schema, frames)
  {
  }

  /** The devices' node maps, in device order. */
  function NodesOf(ds: seq<Device>): (s: seq<NodeMap>)
    reads ds`nodes
    ensures |s| == |ds|
    ensures forall k :: 0 <= k < |ds| ==> s[k] == ds[k].nodes
  {
    if ds == [] then [] else [ds[0].nodes] + NodesOf(ds[1..])
  }

  /** The devices' pending frames, in device order. */
  function FramesOf(ds: seq<Device>): (s: seq<seq<Image>>)
    reads ds`frames
    ensures |s| == |ds|
    ensures forall k :: 0 <= k < |ds| ==> s[k] == ds[k].frames
  {
    if ds == [] then [] else [ds[0].frames] + FramesOf(ds[1..])
  }

  /** The shots of a capture loop over cameras whose node maps were `nodes`
      and whose pending frames were `frames`: one per camera, each with the
      serial number its node map held and its oldest frame. */
  predicate ShotsMatch(devices: seq<Device>, nodes: seq<NodeMap>, frames: seq<seq<Image>>, shots: seq<Shot>) {
    && |shots| == |nodes| == |frames| == |devices|
    && forall k :: 0 <= k < |devices| ==>
         && frames[k] != []
         && ReadString(nodes[k], DeviceSerialNumber).Ok?
         && shots[k] == Shot(devices[k], ReadString(nodes[k], DeviceSerialNumber).value, frames[k][0])
  }

  /** Latching device 0 changes neither which devices can be captured nor
      the shots they yield. */
  lemma LatchKeepsShots(devices: seq<Device>, nodes: seq<NodeMap>, frames: seq<seq<Image>>, clock: int, shots: seq<Shot>)
    requires |nodes| == |frames| == |devices| > 0
    ensures var latched := nodes[0 := Latched(nodes[0], devices[0].schema, clock)];
            && ((forall k :: 0 <= k < |devices| ==> Capturable(latched[k], devices[k].schema, frames[k])) <==>
                (forall k :: 0 <= k < |devices| ==> Capturable(nodes[k], devices[k].schema, frames[k])))
            && (ShotsMatch(devices, latched, frames, shots) <==> ShotsMatch(devices, nodes, frames, shots))
  {
    LatchKeepsCapture(nodes[0], devices[0].schema, clock, frames[0]);
  }

  /** Of the node maps `nodes` the devices had, only device 0's has changed,
      by the latch of its clock. */
  predicate LatchedOnly(devices: seq<Device>, nodes: seq<NodeMap>)
    reads devices`nodes, devices`clock
  {
    && |nodes| == |devices| > 0
    && devices[0].nodes == Latched(nodes[0], devices[0].schema, devices[0].clock)
    && forall k :: 0 < k < |devices| ==> devices[k].nodes == nodes[k]
  }

  /** The state after scheduling and capturing, given the node maps `nodes`,
      the frames `frames` and the system map `tl` from before: device 0's
      latched time read from its node map, the execute time set from it and
      fired, only device 0's node map changed, and one shot per device. */
  predicate Acquired(sys: System, devices: seq<Device>, nodes: seq<NodeMap>, frames: seq<seq<Image>>, tl: NodeMap,
                     latch: int, spec: ActionSpec, shots: seq<Shot>)
    reads sys`tl, devices`nodes, devices`clock
  {
    && |nodes| == |devices| > 0
    && LatchReading(nodes[0], devices[0].schema, devices[0].clock) == Ok(latch)
    && sys.tl == Scheduled(tl, latch)
    && BroadcastSpec(sys.tl) == Ok(spec)
    && spec.executeTime == ExecuteTimeFor(latch)
    && LatchedOnly(devices, nodes)
    && ShotsMatch(devices, nodes, frames, shots)
  }

  /** `nodes` and `frames` are the devices' current node maps and pending frames. */
  predicate Snapshot(devices: seq<Device>, nodes: seq<NodeMap>, frames: seq<seq<Image>>)
    reads devices`nodes, devices`frames
  {
    && |nodes| == |frames| == |devices|
    && forall k :: 0 <= k < |devices| ==> devices[k].nodes == nodes[k] && devices[k].frames == frames[k]
  }

  /** The middle of shoot gets through on these devices: from the system map
      `tl` and the devices' node maps `nodes` and frames `frames`, device 0 can
      latch, the action can be scheduled and fired, and every device yields
      an image. */
  predicate Acquirable(tl: NodeMap, schema: Schema, devices: seq<Device>, nodes: seq<NodeMap>, frames: seq<seq<Image>>)
    reads devices`clock
  {
    && |nodes| == |frames| == |devices| > 0
    && Schedulable(tl, schema, nodes[0], devices[0].schema, devices[0].clock)
    && forall k :: 0 <= k < |devices| ==> Capturable(nodes[k], devices[k].schema, frames[k])
  }

  /** The middle of shoot, while every stream runs: schedule the action from
      device 0's PTP time, then capture every device's image in turn. The
      ghost `nodes0` and `frames0` name the devices' node maps and pending
      frames on entry. */
  method Acquire(sys: System, devices: seq<Device>, ghost nodes0: seq<NodeMap>, ghost frames0: seq<seq<Image>>)
    returns (r: Outcome, latch: int, spec: ActionSpec, shots: seq<Shot>)
    requires Distinct(devices) && |devices| > 0
    requires forall k :: 0 <= k < |devices| ==> devices[k].streaming
    requires Snapshot(devices, nodes0, frames0)
    modifies sys`trace, sys`tl, devices[..1]`nodes, devices`transmitting, devices`frames, devices`held
    ensures r.Pass? <==> Acquirable(old(sys.tl), sys.schema, devices, nodes0, frames0)
    ensures r.Pass? ==> && Acquired(sys, devices, nodes0, frames0, old(sys.tl), latch, spec, shots)
                        && (forall k :: 0 <= k < |devices| ==> Released(devices[k], frames0[k], old(devices[k].held)))
                        && Closed(devices)
                        && sys.trace == old(sys.trace) + [Executed(devices[0], PtpDataSetLatch), Fired(spec)] + CaptureAll(shots)
  {
    shots := [];
    ghost var latched := nodes0[0 := Latched(nodes0[0], devices[0].schema, devices[0].clock)];
    r, latch, spec := ScheduleAction(sys, devices[0]);
    if r.Fail? {
      return;
    }
    r, shots := CaptureImages(sys, devices, latched, frames0);
    LatchKeepsShots(devices, nodes0, frames0, devices[0].clock, shots);
  }

  /** The events of a shoot that gets through: every stream started, device
      0 latched, the action fired, each device's capture in turn, every
      stream stopped. */
  function ShotEvents(devices: seq<Device>, spec: ActionSpec, shots: seq<Shot>): seq<Event>
    requires |devices| > 0
  {
    StartAll(devices) + [Executed(devices[0], PtpDataSetLatch), Fired(spec)] + CaptureAll(shots) + StopAll(devices)
  }

  /** Appending shoot's steps one after another appends its events. A proof
      step only: it models nothing in the program, and lets `Shoot` state its
      trace through `ShotEvents`. */
  lemma AppendShotEvents(t: seq<Event>, devices: seq<Device>, spec: ActionSpec, shots: seq<Shot>)
    requires |devices| > 0
    ensures t + StartAll(devices) + [Executed(devices[0], PtpDataSetLatch), Fired(spec)] + CaptureAll(shots) + StopAll(devices)
            == t + ShotEvents(devices, spec, shots)
  {
  }

  /** shoot: start every stream; latch device 0 (std::out_of_range when there
      is none), schedule and fire the action; capture every device's image in
      turn; stop every stream. Any failure aborts the rest. */
  method Shoot(sys: System, devices: seq<Device>, ghost nodes0: seq<NodeMap>, ghost frames0: seq<seq<Image>>)
    returns (r: Outcome, latch: int, spec: ActionSpec, shots: seq<Shot>)
    requires Distinct(devices)
    requires Snapshot(devices, nodes0, frames0)
    modifies sys`trace, sys`tl, devices`nodes, devices`streaming, devices`transmitting, devices`frames, devices`held
    ensures |devices| == 0 ==> r == Fail(OutOfRange) && sys.trace == old(sys.trace) && sys.tl == old(sys.tl)
    ensures r.Pass? <==> Acquirable(old(sys.tl), sys.schema, devices, nodes0, frames0)
    ensures r.Pass? ==> && Acquired(sys, devices, nodes0, frames0, old(sys.tl), latch, spec, shots)
                        && sys.trace == old(sys.trace) + ShotEvents(devices, spec, shots)
                        && Closed(devices)
                        && forall k :: 0 <= k < |devices| ==> !devices[k].streaming
  {
    latch, spec, shots := 0, ActionSpec(0, 0, 0, 0, 0), [];
    StartStreams(sys, devices);
    if |devices| == 0 {
      return Fail(OutOfRange), latch, spec, shots;
    }
    r, latch, spec, shots := Acquire(sys, devices, nodes0, frames0);
    if r.Fail? {
      return;
    }
    StopStreams(sys, devices);
    AppendShotEvents(old(sys.trace), devices, spec, shots);
  }
}

=== FILE: doubles.dfy ===
/** The execute time shoot writes: an int64 PTP time plus the double 1000.0,
    computed in IEEE 754 double precision and converted back to int64. */
module Doubles {
  /** The delay between the latched PTP time and the action's execute time,
      in nanoseconds; the program writes it as the double 1000.0. */
  const DELTA_TIME: int := 1000

  /** 2^53: every integer of smaller magnitude is a double. */
  const EXACT_LIMIT: int := 0x20_0000_0000_0000

  function Pow2(k: nat): (p: nat)
    ensures p >= 1
  {
    if k == 0 then 1 else 2 * Pow2(k - 1)
  }

  /** The spacing of the doubles around a non-negative integer: 1 below 2^53,
      doubling with every power of two above. */
  function Ulp(x: nat): (u: nat)
    ensures u >= 1
  {
    if x < EXACT_LIMIT then 1 else 2 * Ulp(x / 2)
  }

  /** Between 2^(52 + k) and 2^(53 + k) the doubles are 2^k apart. */
  lemma {:induction false} UlpOfBinade(x: nat, k: nat)
    requires k > 0 ==> EXACT_LIMIT / 2 * Pow2(k) <= x
    requires x < EXACT_LIMIT * Pow2(k)
    ensures Ulp(x) == Pow2(k)
  {
    if k > 0 {
      UlpOfBinade(x / 2, k - 1);
    }
  }

  lemma DivisionSplits(x: nat, u: nat)
    requires u >= 1
    ensures x == x / u * u + x % u && x % u < u
  {
  }

  lemma NextMultiple(q: nat, u: nat)
    ensures (q + 1) * u == q * u + u
  {
  }

  /** A non-negative integer rounded to the nearest multiple of u, ties to the
      even multiple: a multiple of u at most half a step away, an even one on
      a tie, and exact when u is 1. */
  function RoundToMultiple(x: nat, u: nat): (y: nat)
    requires u >= 1
    ensures exists k: nat :: y == k * u && (2 * (y - x) == u || 2 * (x - y) == u ==> k % 2 == 0)
    ensures 2 * (y - x) <= u && 2 * (x - y) <= u
    ensures u == 1 ==> y == x
  {
    var q, rest := x / u, x % u;
    var below := q * u;
    DivisionSplits(x, u);
    NextMultiple(q, u);
    if 2 * rest < u || (2 * rest == u && q % 2 == 0) then
      assert below == q * u;
      below
    else
      assert below + u == (q + 1) * u;
      below + u
  }

  function Abs(x: int): nat {
    if x >= 0 then x else -x
  }

  /** The conversion of an int64 to double: to the nearest double, ties to
      the even one. */
  function ToDouble(x: int): int {
    if x >= 0 then RoundToMultiple(x, Ulp(x)) else -(RoundToMultiple(-x, Ulp(-x)) as int)
  }

  /** The execute time the program writes, `ptpDataSetLatchValue + DELTA_TIME`:
      the latch converted to double, 1000.0 added in double arithmetic, and
      the sum converted back to int64. */
  function ExecuteTimeFor(latch: int): int {
    ToDouble(ToDouble(latch) + DELTA_TIME)
  }

  /** A conversion to double lands at most half a spacing away, and below 2^53
      it is exact. */
  lemma ToDoubleNearest(x: int)
    ensures 2 * Abs(ToDouble(x) - x) <= Ulp(Abs(x))
    ensures -EXACT_LIMIT < x < EXACT_LIMIT ==> ToDouble(x) == x
  {
  }

  /** Below 2^53 the execute time is exactly DELTA_TIME after the latch; above,
      each of the two roundings moves it by at most half a spacing. */
  lemma ExecuteTimeNear(latch: int)
    ensures -EXACT_LIMIT < latch && latch + DELTA_TIME < EXACT_LIMIT ==> ExecuteTimeFor(latch) == latch + DELTA_TIME
    ensures 2 * Abs(ExecuteTimeFor(latch) - (latch + DELTA_TIME)) <= Ulp(Abs(latch)) + Ulp(Abs(ToDouble(latch) + DELTA_TIME))
  {
    ToDoubleNearest(latch);
    ToDoubleNearest(ToDouble(latch) + DELTA_TIME);
  }

  /** A PTP time of today's order, about 1.76e18 ns since 1970, lies where the
      doubles are 256 apart: the latch is rounded down by 21 and the sum up by
      24, so the action is scheduled 1003 ns after it. */
  lemma ExecuteTimeRounded()
    ensures ExecuteTimeFor(1760000000123456789) == 1760000000123457792
  {
    assert Pow2(8) == 256;
    UlpOfBinade(1760000000123456789, 8);
    assert ToDouble(1760000000123456789) == 1760000000123456768;
    UlpOfBinade(1760000000123457768, 8);
  }
}

=== FILE: nodemaps.dfy ===
/** GenICam-style node maps: the named features of a camera or of the transport
    layer, their typed values, and the failures that reading or writing them raises. */
module NodeMaps {

  /** The features that the acquisition program reads, writes or executes. Each
      constructor is named after the GenICam feature it stands for. */
  datatype Feature =
    // device node map
    | DeviceSerialNumber
    | ExposureAuto | ExposureTime | GainAuto | Gain
    | TriggerSelector | TriggerMode | TriggerSource
    | ActionUnconditionalMode | ActionSelector | ActionDeviceKey | ActionGroupKey | ActionGroupMask
    | PtpEnable | PtpStatus | PtpDataSetLatch | PtpDataSetLatchValue
    | TransferControlMode | TransferOperationMode | TransferStart | TransferStop
    | PixelFormat
    // device transport-layer stream node map
    | StreamAutoNegotiatePacketSize | StreamPacketResendEnable
    // system transport-layer node map
    | ActionCommandDeviceKey | ActionCommandGroupKey | ActionCommandGroupMask
    | ActionCommandTargetIP | ActionCommandExecuteTime | ActionCommandFireCommand

  /** A node's current value; command nodes carry none. Floating-point features
      are kept as exact reals, since the program only writes them. */
  datatype Value = Str(s: string) | Int(n: int) | Flag(b: bool) | Float(x: real) | Command

  datatype Kind = StringKind | IntegerKind | BooleanKind | FloatKind | CommandKind

  function KindOf(v: Value): Kind {
    match v
    case Str(_) => StringKind
    case Int(_) => IntegerKind
    case Flag(_) => BooleanKind
    case Float(_) => FloatKind
    case Command => CommandKind
  }

  /** A node map's current values. */
  type NodeMap = map<Feature, Value>

  /** A node map's layout, fixed by the device's feature description: which
      nodes exist and of what type each is. */
  type Schema = map<Feature, Kind>

  /** The values fill exactly the nodes of the layout, each with its own type. */
  predicate Conforms(m: NodeMap, schema: Schema) {
    m.Keys == schema.Keys && forall f :: f in m ==> KindOf(m[f]) == schema[f]
  }

  /** What an SDK call can fail with. NodeNotFound and WrongKind are the GenICam
      exceptions of a feature access, Timeout and NotStreaming those of image
      retrieval, BufferNotHeld that of requeueing a foreign buffer, OutOfRange the
      std::out_of_range of indexing an empty device list, and NegotiationPending
      marks a PTP wait that used up its poll budget. */
  datatype Error =
    | NodeNotFound(node: Feature)
    | WrongKind(node: Feature)
    | Timeout
    | NotStreaming
    | BufferNotHeld
    | OutOfRange
    | NegotiationPending

  datatype Result<+T> = Ok(value: T) | Err(error: Error) {
    predicate IsFailure() { Err? }
    function PropagateFailure<U>(): Result<U> requires Err? { Err(error) }
    function Extract(): T requires Ok? { value }
    function GetOr(default: T): T { if Ok? then value else default }
  }

  /** The outcome of a call that returns nothing but may throw. */
  datatype Outcome = Pass | Fail(error: Error) {
    predicate IsFailure() { Fail? }
    function PropagateFailure(): Outcome requires Fail? { this }
  }

  /** GetNodeValue<gcstring>: the string value of a string node. */
  function ReadString(m: NodeMap, f: Feature): (r: Result<string>)
    ensures r.Ok? <==> f in m && m[f].Str?
    ensures r.Ok? ==> m[f] == Str(r.value)
    ensures r == Err(NodeNotFound(f)) <==> f !in m
    ensures r == Err(WrongKind(f)) <==> f in m && !m[f].Str?
  {
    if f !in m then Err(NodeNotFound(f))
    else if !m[f].Str? then Err(WrongKind(f))
    else Ok(m[f].s)
  }

  /** GetNodeValue<int64_t>: the value of an integer node. */
  function ReadInt(m: NodeMap, f: Feature): (r: Result<int>)
    ensures r.Ok? <==> f in m && m[f].Int?
    ensures r.Ok? ==> m[f] == Int(r.value)
    ensures r == Err(NodeNotFound(f)) <==> f !in m
    ensures r == Err(WrongKind(f)) <==> f in m && !m[f].Int?
  {
    if f !in m then Err(NodeNotFound(f))
    else if !m[f].Int? then Err(WrongKind(f))
    else Ok(m[f].n)
  }

  /** SetNodeValue succeeds when the node exists, is not a command, and the value
      has the node's type. */
  predicate Writable(schema: Schema, f: Feature, v: Value) {
    f in schema && schema[f] == KindOf(v) && schema[f] != CommandKind
  }

  /** ExecuteNode succeeds when the node exists and is a command. */
  predicate Executable(schema: Schema, f: Feature) {
    f in schema && schema[f] == CommandKind
  }

  /** A rejected access raises the GenICam exception it names. */
  function AccessError(schema: Schema, f: Feature): Error {
    if f in schema then WrongKind(f) else NodeNotFound(f)
  }

  /** An accepted write keeps the values conforming to the layout. */
  lemma WriteConforms(m: NodeMap, schema: Schema, f: Feature, v: Value)
    requires Conforms(m, schema) && Writable(schema, f, v)
    ensures Conforms(m[f := v], schema)
  {
  }
}

=== FILE: polarization.dfy ===
/** The post-processing script: split a polarisation camera's raw frame into
    its four polarisation views and warn when the 0° view is over-exposed.
    Pixels are the frame's 16-bit sample values; a frame is a sequence of
    rows, as the 2-D array the script reads from the PNG file. */
module Polarization {

  datatype Option<T> = None | Some(value: T)

  type Grid = seq<seq<nat>>

  /** The width of a frame, read from its first row. */
  function Width(g: Grid): nat {
    if g == [] then 0 else |g[0]|
  }

  /** Every row has the same length, as in a 2-D array. */
  predicate Rectangular(g: Grid) {
    forall y :: 0 <= y < |g| ==> |g[y]| == Width(g)
  }

  /** Every sample fits in 16 bits, as in the frames the cameras write. */
  predicate SixteenBit(g: Grid) {
    forall y, x :: 0 <= y < |g| && 0 <= x < |g[y]| ==> g[y][x] < 0x1_0000
  }

  /** The largest 12-bit value: what a saturated 16-bit sample becomes after
      the shift. */
  const SATURATED: nat := 4095

  // ---------------------------------------------------------------------------
  // extract_polarized_bayer

  /** `s[start::2]`: the elements at start, start + 2, start + 4, ... */
  function EveryOther<T>(s: seq<T>, start: nat): (t: seq<T>)
    requires start < 2
    ensures |t| == (|s| + 1 - start) / 2
    ensures forall i :: 0 <= i < |t| ==> 2 * i + start < |s| && t[i] == s[2 * i + start]
    decreases |s|
  {
    if start >= |s| then [] else [s[start]] + EveryOther(s[start + 1..], 1)
  }

  /** `v >> 4` on a non-negative sample. */
  function Shr4(v: nat): nat {
    v / 16
  }

  /** Every sample of a row shifted right by 4. */
  function ShiftRow(row: seq<nat>): (r: seq<nat>)
    ensures |r| == |row|
    ensures forall j :: 0 <= j < |row| ==> r[j] == Shr4(row[j])
  {
    seq(|row|, j requires 0 <= j < |row| => Shr4(row[j]))
  }

  /** `image[r0::2, c0::2] >> 4`: the samples whose row has parity r0 and
      whose column has parity c0, shifted right by 4. */
  function View(img: Grid, r0: nat, c0: nat): (v: Grid)
    requires r0 < 2 && c0 < 2
    ensures |v| == (|img| + 1 - r0) / 2
    ensures forall i :: 0 <= i < |v| ==> 2 * i + r0 < |img| && |v[i]| == (|img[2 * i + r0]| + 1 - c0) / 2
    ensures forall i, j :: 0 <= i < |v| && 0 <= j < |v[i]| ==>
              2 * j + c0 < |img[2 * i + r0]| && v[i][j] == Shr4(img[2 * i + r0][2 * j + c0])
  {
    var rows := EveryOther(img, r0);
    seq(|rows|, i requires 0 <= i < |rows| => ShiftRow(EveryOther(rows[i], c0)))
  }

  /** The four polarisation views, one per angle of the on-chip polariser. */
  datatype Views = Views(i0: Grid, i45: Grid, i90: Grid, i135: Grid)

  /** The view whose samples come from rows of parity r0 and columns of parity c0. */
  function ViewAt(v: Views, r0: nat, c0: nat): Grid
    requires r0 < 2 && c0 < 2
  {
    if r0 == 1 && c0 == 1 then v.i0
    else if r0 == 0 && c0 == 1 then v.i45
    else if r0 == 0 then v.i90
    else v.i135
  }

  /** extract_polarized_bayer: 0° from odd rows and odd columns, 45° from even
      rows and odd columns, 90° from even rows and even columns, 135° from odd
      rows and even columns, every sample shifted right by 4. */
  function ExtractPolarizedBayer(img: Grid): (v: Views)
    ensures forall r, c :: 0 <= r < |v.i0| && 0 <= c < |v.i0[r]| ==>
              2 * r + 1 < |img| && 2 * c + 1 < |img[2 * r + 1]| && v.i0[r][c] == Shr4(img[2 * r + 1][2 * c + 1])
    ensures forall r, c :: 0 <= r < |v.i45| && 0 <= c < |v.i45[r]| ==>
              2 * r < |img| && 2 * c + 1 < |img[2 * r]| && v.i45[r][c] == Shr4(img[2 * r][2 * c + 1])
    ensures forall r, c :: 0 <= r < |v.i90| && 0 <= c < |v.i90[r]| ==>
              2 * r < |img| && 2 * c < |img[2 * r]| && v.i90[r][c] == Shr4(img[2 * r][2 * c])
    ensures forall r, c :: 0 <= r < |v.i135| && 0 <= c < |v.i135[r]| ==>
              2 * r + 1 < |img| && 2 * c < |img[2 * r + 1]| && v.i135[r][c] == Shr4(img[2 * r + 1][2 * c])
  {
    Views(View(img, 1, 1), View(img, 0, 1), View(img, 0, 0), View(img, 1, 0))
  }

  /** The views' shapes on an H×W frame: the 90° view takes ⌈H/2⌉×⌈W/2⌉
      samples, the 0° view ⌊H/2⌋×⌊W/2⌋, the 45° view ⌈H/2⌉×⌊W/2⌋ and the 135°
      view ⌊H/2⌋×⌈W/2⌉; each view is itself a rectangular array. */
  lemma ViewShapes(img: Grid)
    requires Rectangular(img)
    ensures var v, h, w := ExtractPolarizedBayer(img), |img|, Width(img);
            && |v.i0| == h / 2 && |v.i45| == (h + 1) / 2 && |v.i90| == (h + 1) / 2 && |v.i135| == h / 2
            && (forall r :: 0 <= r < |v.i0| ==> |v.i0[r]| == w / 2)
            && (forall r :: 0 <= r < |v.i45| ==> |v.i45[r]| == w / 2)
            && (forall r :: 0 <= r < |v.i90| ==> |v.i90[r]| == (w + 1) / 2)
            && (forall r :: 0 <= r < |v.i135| ==> |v.i135[r]| == (w + 1) / 2)
  {
  }

  /** The number of samples in a frame. */
  function Size(g: Grid): nat {
    if g == [] then 0 else |g[0]| + Size(g[1..])
  }

  lemma {:induction false} SizeRectangular(g: Grid, w: nat)
    requires forall y :: 0 <= y < |g| ==> |g[y]| == w
    ensures Size(g) == |g| * w
  {
    if g != [] {
      SizeRectangular(g[1..], w);
    }
  }

  lemma ViewAtIsView(img: Grid, r0: nat, c0: nat)
    requires r0 < 2 && c0 < 2
    ensures ViewAt(ExtractPolarizedBayer(img), r0, c0) == View(img, r0, c0)
  {
    var v := ExtractPolarizedBayer(img);
    assert v == Views(View(img, 1, 1), View(img, 0, 1), View(img, 0, 0), View(img, 1, 0));
  }

  /** Index y of a sequence of length n is entry y / 2 of its every-other
      slice starting at y % 2. */
  lemma HalfIndex(y: nat, n: nat)
    requires y < n
    ensures y % 2 < 2 && y == 2 * (y / 2) + y % 2 && y / 2 < (n + 1 - y % 2) / 2
  {
  }

  lemma OddIndex(r: nat)
    ensures (2 * r + 1) % 2 == 1
  {
  }

  /** Sample (y, x) of a rectangular frame sits, shifted, at (y / 2, x / 2) of
      the view with its row and column parities. */
  lemma InView(img: Grid, y: nat, x: nat)
    requires Rectangular(img) && y < |img| && x < Width(img)
    ensures var g := View(img, y % 2, x % 2);
            y / 2 < |g| && x / 2 < |g[y / 2]| && g[y / 2][x / 2] == Shr4(img[y][x])
  {
    HalfIndex(y, |img|);
    HalfIndex(x, Width(img));
    var r0, c0, r, c := y % 2, x % 2, y / 2, x / 2;
    var g := View(img, r0, c0);
    assert |img[2 * r + r0]| == Width(img);
    assert c < |g[r]|;
  }

  /** ⌈h/2⌉·⌈w/2⌉ + ⌊h/2⌋·⌊w/2⌋ + ⌈h/2⌉·⌊w/2⌋ + ⌊h/2⌋·⌈w/2⌉ = h·w. */
  lemma SizeSum(h: nat, w: nat)
    ensures h / 2 * (w / 2) + (h + 1) / 2 * (w / 2) + (h + 1) / 2 * ((w + 1) / 2) + h / 2 * ((w + 1) / 2) == h * w
  {
    var a, a', b, b' := (h + 1) / 2, h / 2, (w + 1) / 2, w / 2;
    assert a + a' == h && b + b' == w;
    calc {
      a' * b' + a * b' + a * b + a' * b;
      (a + a') * b' + (a + a') * b;
      (a + a') * (b + b');
      h * w;
    }
  }

  /** On any rectangular frame the four views split the samples exactly:
      every sample (y, x) appears, shifted, in the view of its row and column
      parities at (y / 2, x / 2), and the views hold H·W samples in all, so no
      sample is repeated and none is left out. */
  lemma ViewsCoverFrame(img: Grid)
    requires Rectangular(img)
    ensures var v := ExtractPolarizedBayer(img);
            Size(v.i0) + Size(v.i45) + Size(v.i90) + Size(v.i135) == |img| * Width(img)
    ensures var v := ExtractPolarizedBayer(img);
            forall y, x :: 0 <= y < |img| && 0 <= x < Width(img) ==>
              var g := ViewAt(v, y % 2, x % 2);
              y / 2 < |g| && x / 2 < |g[y / 2]| && g[y / 2][x / 2] == Shr4(img[y][x])
  {
    var v, h, w := ExtractPolarizedBayer(img), |img|, Width(img);
    ViewShapes(img);
    SizeRectangular(v.i0, w / 2);
    SizeRectangular(v.i45, w / 2);
    SizeRectangular(v.i90, (w + 1) / 2);
    SizeRectangular(v.i135, (w + 1) / 2);
    SizeSum(h, w);
    forall y, x | 0 <= y < h && 0 <= x < w
      ensures var g := ViewAt(v, y % 2, x % 2);
              y / 2 < |g| && x / 2 < |g[y / 2]| && g[y / 2][x / 2] == Shr4(img[y][x])
    {
      ViewAtIsView(img, y % 2, x % 2);
      InView(img, y, x);
    }
  }

  /** On 16-bit samples every view value fits in 12 bits, and a view value is
      the saturated 4095 exactly when its sample is at least 4095 · 16. */
  lemma Shr4Bounds(v: nat)
    requires v < 0x1_0000
    ensures Shr4(v) <= SATURATED
    ensures Shr4(v) == SATURATED <==> v >= SATURATED * 16
  {
  }

  /** Some sample of `g` is `m`. */
  predicate HasValue(g: Grid, m: nat) {
    exists y, x :: 0 <= y < |g| && 0 <= x < |g[y]| && g[y][x] == m
  }

  /** No sample of `g` exceeds `m`. */
  predicate Bounded(g: Grid, m: nat) {
    forall y, x :: 0 <= y < |g| && 0 <= x < |g[y]| ==> g[y][x] <= m
  }

  lemma ViewBounded(img: Grid, r0: nat, c0: nat)
    requires r0 < 2 && c0 < 2 && SixteenBit(img)
    ensures Bounded(View(img, r0, c0), SATURATED)
  {
    var g := View(img, r0, c0);
    forall r, c | 0 <= r < |g| && 0 <= c < |g[r]|
      ensures g[r][c] <= SATURATED
    {
      Shr4Bounds(img[2 * r + r0][2 * c + c0]);
    }
  }

  // ---------------------------------------------------------------------------
  // The over-exposure check

  /** Python's `max` over a sequence: it raises on an empty one. */
  function MaxOf(s: seq<nat>): (m: Option<nat>)
    ensures m.Some? <==> s != []
    ensures m.Some? ==> (exists i :: 0 <= i < |s| && s[i] == m.value) && forall i :: 0 <= i < |s| ==> s[i] <= m.value
  {
    if s == [] then None
    else match MaxOf(s[1..])
      case None => Some(s[0])
      case Some(t) => Some(if s[0] >= t then s[0] else t)
  }

  /** `[max(x) for x in g]`: each row's maximum, raising on an empty row. */
  function RowMaxima(g: Grid): (ms: Option<seq<nat>>)
    ensures ms.Some? <==> forall y :: 0 <= y < |g| ==> g[y] != []
    ensures ms.Some? ==> |ms.value| == |g| && forall y :: 0 <= y < |g| ==> Some(ms.value[y]) == MaxOf(g[y])
  {
    if g == [] then Some([])
    else match (MaxOf(g[0]), RowMaxima(g[1..]))
      case (Some(m), Some(rest)) => Some([m] + rest)
      case _ => None
  }

  /** The largest of the row maxima is a sample of the frame that no sample
      exceeds. */
  lemma MaxOfRowMaxima(g: Grid, ms: seq<nat>)
    requires RowMaxima(g) == Some(ms) && ms != []
    ensures HasValue(g, MaxOf(ms).value) && Bounded(g, MaxOf(ms).value)
  {
    var m := MaxOf(ms).value;
    var y :| 0 <= y < |ms| && ms[y] == m;
    assert MaxOf(g[y]) == Some(m);
    var x :| 0 <= x < |g[y]| && g[y][x] == m;
    forall y', x' | 0 <= y' < |g| && 0 <= x' < |g[y']|
      ensures g[y'][x'] <= m
    {
      assert MaxOf(g[y']) == Some(ms[y']);
    }
  }

  /** `max([max(x) for x in g])`: the largest sample of a frame, or None where
      Python raises. It is defined exactly on frames with rows, all of them
      non-empty, and it is then a sample of the frame that no sample
      exceeds. */
  function MaxPixel(g: Grid): (m: Option<nat>)
    ensures m.Some? <==> g != [] && forall y :: 0 <= y < |g| ==> g[y] != []
    ensures m.Some? ==> HasValue(g, m.value) && Bounded(g, m.value)
  {
    match RowMaxima(g)
    case None => None
    case Some(ms) =>
      if ms == [] then None
      else MaxOfRowMaxima(g, ms); MaxOf(ms)
  }

  /** A maximum of samples that are all at most 4095 is 4095 exactly when some
      sample is. */
  lemma SaturatedMax(g: Grid, m: nat)
    requires Bounded(g, SATURATED) && HasValue(g, m) && Bounded(g, m)
    ensures m == SATURATED <==> HasValue(g, SATURATED)
  {
    if HasValue(g, SATURATED) {
      var y, x :| 0 <= y < |g| && 0 <= x < |g[y]| && g[y][x] == SATURATED;
      var y', x' :| 0 <= y' < |g| && 0 <= x' < |g[y']| && g[y'][x'] == m;
    }
  }

  /** Some sample at an odd row and an odd column (a 0° sample) is at least
      4095 · 16. */
  predicate ZeroDegreeSaturated(img: Grid) {
    exists y, x :: 0 <= y < |img| && 0 <= x < |img[y]| && y % 2 == 1 && x % 2 == 1 && img[y][x] >= SATURATED * 16
  }

  /** A saturated 0° value comes from a 0° sample of at least 4095 · 16. */
  lemma SaturatedSource(img: Grid)
    requires SixteenBit(img) && HasValue(View(img, 1, 1), SATURATED)
    ensures ZeroDegreeSaturated(img)
  {
    var g := View(img, 1, 1);
    var r, c :| 0 <= r < |g| && 0 <= c < |g[r]| && g[r][c] == SATURATED;
    var y, x := 2 * r + 1, 2 * c + 1;
    Shr4Bounds(img[y][x]);
    OddIndex(r);
    OddIndex(c);
  }

  /** A 0° sample of at least 4095 · 16 shows as a saturated 0° value. */
  lemma SaturatedTarget(img: Grid)
    requires Rectangular(img) && SixteenBit(img) && ZeroDegreeSaturated(img)
    ensures HasValue(View(img, 1, 1), SATURATED)
  {
    var y, x :| 0 <= y < |img| && 0 <= x < |img[y]| && y % 2 == 1 && x % 2 == 1 && img[y][x] >= SATURATED * 16;
    InView(img, y, x);
    Shr4Bounds(img[y][x]);
    assert View(img, 1, 1)[y / 2][x / 2] == SATURATED;
  }

  /** What the script prints after the extraction. */
  datatype Report = OverExposed | MaxPixelValue(value: nat)

  /** The script's check: the largest sample of the 0° view, a warning when it
      is the saturated 4095, None where `max` raises. A verdict is reached
      exactly when the 0° view has rows, none of them empty; the warning
      means a 0° value is 4095, and a printed value is the 0° maximum. */
  function CheckExposure(img: Grid): (r: Option<Report>)
    ensures r.Some? <==> View(img, 1, 1) != [] && forall y :: 0 <= y < |View(img, 1, 1)| ==> View(img, 1, 1)[y] != []
    ensures r == Some(OverExposed) ==> HasValue(View(img, 1, 1), SATURATED) && Bounded(View(img, 1, 1), SATURATED)
    ensures r.Some? && r.value.MaxPixelValue? ==>
              && r.value.value != SATURATED
              && HasValue(View(img, 1, 1), r.value.value)
              && Bounded(View(img, 1, 1), r.value.value)
  {
    match MaxPixel(ExtractPolarizedBayer(img).i0)
    case None => None
    case Some(m) => Some(if m == SATURATED then OverExposed else MaxPixelValue(m))
  }

  /** On a 16-bit rectangular frame the check reaches a verdict exactly when the
      frame is at least 2×2; it warns exactly when some 0° sample is at least
      4095 · 16; otherwise it reports a maximum below 4095. Over-exposure in
      the other three views is not looked at. */
  lemma ExposureWarning(img: Grid)
    requires Rectangular(img) && SixteenBit(img)
    ensures CheckExposure(img).Some? <==> |img| >= 2 && Width(img) >= 2
    ensures CheckExposure(img) == Some(OverExposed) <==> ZeroDegreeSaturated(img)
    ensures CheckExposure(img).Some? && CheckExposure(img) != Some(OverExposed) ==>
              CheckExposure(img).value.value < SATURATED
  {
    var i0 := View(img, 1, 1);
    ViewShapes(img);
    ViewBounded(img, 1, 1);
    if HasValue(i0, SATURATED) {
      SaturatedSource(img);
    }
    if ZeroDegreeSaturated(img) {
      SaturatedTarget(img);
    }
    var r := CheckExposure(img);
    if r.Some? && r.value.MaxPixelValue? {
      SaturatedMax(i0, r.value.value);
    }
  }
}

=== FILE: prep.dfy ===
/** sync_and_prep: put every camera into the same baseline configuration, set
    up the system's broadcast action command, and wait for PTP to settle.

    Each commented block of the preparation is a fixed list of SetNodeValue
    calls; the model keeps each list as a table of settings, written in order
    by straight-line calls, and states what a block does through `Apply`
    (the node map after the writes) and `AllWritable` (every write accepted). */
module Prep {
  import opened NodeMaps
  import opened Arena
  import PtpSync

  const PTP_SYNC: bool := true

  /** One SetNodeValue of the preparation: a node and the value written to it. */
  datatype Setting = Setting(node: Feature, value: Value)

  /** The node map after writing `settings` in order. */
  function Apply(m: NodeMap, settings: seq<Setting>): NodeMap
    decreases |settings|
  {
    if settings == [] then m else Apply(m[settings[0].node := settings[0].value], settings[1..])
  }

  /** Every write of `settings` is accepted by a node map of this layout. */
  predicate AllWritable(schema: Schema, settings: seq<Setting>)
    decreases |settings|
  {
    settings == [] || (Writable(schema, settings[0].node, settings[0].value) && AllWritable(schema, settings[1..]))
  }

  // ---------------------------------------------------------------------------
  // The tables

  /** Manual exposure time (EXPOSURE_TIME, 44000.0) and gain, so that every
      camera exposes alike. */
  const ExposureSettings: seq<Setting> :=
    [Setting(ExposureAuto, Str("Off")), Setting(ExposureTime, Float(44000.0)),
     Setting(GainAuto, Str("Off")), Setting(Gain, Float(12.0))]

  /** Frame start triggered by action command 0. */
  const TriggerSettings: seq<Setting> :=
    [Setting(TriggerSelector, Str("FrameStart")), Setting(TriggerMode, Str("On")),
     Setting(TriggerSource, Str("Action0"))]

  /** Action commands accepted without write access, for selector 0 and the
      keys and mask that the system will broadcast. */
  const ActionSettings: seq<Setting> :=
    [Setting(ActionUnconditionalMode, Str("On")), Setting(ActionSelector, Int(0)),
     Setting(ActionDeviceKey, Int(1)), Setting(ActionGroupKey, Int(1)), Setting(ActionGroupMask, Int(1))]

  /** PTP on, so that the cameras negotiate a master clock. */
  const PtpSettings: seq<Setting> := [Setting(PtpEnable, Flag(true))]

  /** On the stream node map: largest packet size and packet resend. */
  const StreamSettings: seq<Setting> :=
    [Setting(StreamAutoNegotiatePacketSize, Flag(true)), Setting(StreamPacketResendEnable, Flag(true))]

  /** Transmission only when the program releases it. */
  const TransferSettings: seq<Setting> :=
    [Setting(TransferControlMode, Str("UserControlled")), Setting(TransferOperationMode, Str("Continuous"))]

  /** The pixel format the images are retrieved in. */
  const PixelSettings: seq<Setting> := [Setting(PixelFormat, Str("BayerRG16"))]

  /** Every write to a camera's own node map, in program order. */
  const DeviceSettings: seq<Setting> :=
    ExposureSettings + TriggerSettings + ActionSettings + PtpSettings + TransferSettings + PixelSettings

  /** The broadcast action command's device key, group key, group mask and
      target address; the target 255.255.255.255 reaches every camera. */
  const SystemSettings: seq<Setting> :=
    [Setting(ActionCommandDeviceKey, Int(1)), Setting(ActionCommandGroupKey, Int(1)),
     Setting(ActionCommandGroupMask, Int(1)), Setting(ActionCommandTargetIP, Int(0xFFFF_FFFF))]

  /** A camera's node map after sync_and_prep. */
  function Configured(m: NodeMap): NodeMap {
    Apply(m, DeviceSettings)
  }

  /** A camera's stream node map after sync_and_prep. */
  function ConfiguredStream(m: NodeMap): NodeMap {
    Apply(m, StreamSettings)
  }

  /** The system's node map after sync_and_prep. */
  function ConfiguredSystem(m: NodeMap): NodeMap {
    Apply(m, SystemSettings)
  }

  /** A camera whose serial number reads, whose node maps accept every write of
      the preparation, and which has a TransferStop command. */
  predicate DevicePreparable(nodes: NodeMap, m: Schema, stream: Schema) {
    && ReadString(nodes, DeviceSerialNumber).Ok?
    && AllWritable(m, DeviceSettings)
    && AllWritable(stream, StreamSettings)
    && Executable(m, TransferStop)
  }

  /** A system node map that accepts the preparation's writes. */
  predicate SystemPreparable(m: Schema) {
    AllWritable(m, SystemSettings)
  }

  // ---------------------------------------------------------------------------
  // Writing a table

  /** Writing two tables one after the other is writing their concatenation. */
  lemma {:induction false} ApplyConcat(m: NodeMap, a: seq<Setting>, b: seq<Setting>)
    ensures Apply(m, a + b) == Apply(Apply(m, a), b)
    decreases |a|
  {
    if a == [] {
      assert a + b == b;
    } else {
      assert (a + b)[1..] == a[1..] + b;
      ApplyConcat(m[a[0].node := a[0].value], a[1..], b);
    }
  }

  /** Two tables are accepted together exactly when each is. */
  lemma {:induction false} AllWritableConcat(schema: Schema, a: seq<Setting>, b: seq<Setting>)
    ensures AllWritable(schema, a + b) <==> AllWritable(schema, a) && AllWritable(schema, b)
    decreases |a|
  {
    if a == [] {
      assert a + b == b;
    } else {
      assert (a + b)[1..] == a[1..] + b;
      AllWritableConcat(schema, a[1..], b);
    }
  }

  /** A node that no setting names keeps its presence and its value. */
  lemma {:induction false} ApplyUntouched(m: NodeMap, settings: seq<Setting>, f: Feature)
    requires forall j :: 0 <= j < |settings| ==> settings[j].node != f
    ensures f in Apply(m, settings) <==> f in m
    ensures f in m ==> Apply(m, settings)[f] == m[f]
    decreases |settings|
  {
    if settings != [] {
      ApplyUntouched(m[settings[0].node := settings[0].value], settings[1..], f);
    }
  }

  /** A node holds the value of the last setting that names it. */
  lemma {:induction false} ApplyWritten(m: NodeMap, settings: seq<Setting>, j: nat)
    requires j < |settings|
    requires forall k :: j < k < |settings| ==> settings[k].node != settings[j].node
    ensures settings[j].node in Apply(m, settings)
    ensures Apply(m, settings)[settings[j].node] == settings[j].value
    decreases |settings|
  {
    var m' := m[settings[0].node := settings[0].value];
    if j == 0 {
      ApplyUntouched(m', settings[1..], settings[0].node);
    } else {
      ApplyWritten(m', settings[1..], j - 1);
    }
  }

  /** Writes the layout accepts keep a node map within its layout. */
  lemma {:induction false} ApplyConforms(m: NodeMap, schema: Schema, settings: seq<Setting>)
    requires Conforms(m, schema) && AllWritable(schema, settings)
    ensures Conforms(Apply(m, settings), schema)
    decreases |settings|
  {
    if settings != [] {
      WriteConforms(m, schema, settings[0].node, settings[0].value);
      ApplyConforms(m[settings[0].node := settings[0].value], schema, settings[1..]);
    }
  }

  /** A camera whose node maps fit their layouts still fits them once
      prepared. */
  lemma PreparedConforms(nodes: NodeMap, stream: NodeMap, m: Schema, ss: Schema)
    requires Conforms(nodes, m) && Conforms(stream, ss) && DevicePreparable(nodes, m, ss)
    ensures Conforms(Configured(nodes), m) && Conforms(ConfiguredStream(stream), ss)
  {
    ApplyConforms(nodes, m, DeviceSettings);
    ApplyConforms(stream, ss, StreamSettings);
  }

  /** The device table seen block by block, as the straight-line code writes it. */
  lemma DeviceSettingsByBlock(m: NodeMap, schema: Schema)
    ensures Configured(m) ==
            Apply(Apply(Apply(Apply(Apply(Apply(m, ExposureSettings), TriggerSettings), ActionSettings),
                              PtpSettings), TransferSettings), PixelSettings)
    ensures AllWritable(schema, DeviceSettings) <==>
            && AllWritable(schema, ExposureSettings) && AllWritable(schema, TriggerSettings)
            && AllWritable(schema, ActionSettings) && AllWritable(schema, PtpSettings)
            && AllWritable(schema, TransferSettings) && AllWritable(schema, PixelSettings)
  {
    var s1 := ExposureSettings;
    var s2 := s1 + TriggerSettings;
    var s3 := s2 + ActionSettings;
    var s4 := s3 + PtpSettings;
    var s5 := s4 + TransferSettings;
    ApplyConcat(m, s5, PixelSettings);
    ApplyConcat(m, s4, TransferSettings);
    ApplyConcat(m, s3, PtpSettings);
    ApplyConcat(m, s2, ActionSettings);
    ApplyConcat(m, s1, TriggerSettings);
    AllWritableConcat(schema, s5, PixelSettings);
    AllWritableConcat(schema, s4, TransferSettings);
    AllWritableConcat(schema, s3, PtpSettings);
    AllWritableConcat(schema, s2, ActionSettings);
    AllWritableConcat(schema, s1, TriggerSettings);
  }

  /** The preparation written out as the sixteen updates it makes, in order. */
  lemma ConfiguredUpdates(m: NodeMap)
    ensures Configured(m) ==
            m[ExposureAuto := Str("Off")][ExposureTime := Float(44000.0)][GainAuto := Str("Off")][Gain := Float(12.0)]
             [TriggerSelector := Str("FrameStart")][TriggerMode := Str("On")][TriggerSource := Str("Action0")]
             [ActionUnconditionalMode := Str("On")][ActionSelector := Int(0)][ActionDeviceKey := Int(1)]
             [ActionGroupKey := Int(1)][ActionGroupMask := Int(1)]
             [PtpEnable := Flag(true)]
             [TransferControlMode := Str("UserControlled")][TransferOperationMode := Str("Continuous")]
             [PixelFormat := Str("BayerRG16")]
  {
    DeviceSettingsByBlock(m, map[]);
  }

  /** After the preparation a camera exposes manually for 44 ms at gain 12 and
      starts a frame on action command 0. */
  lemma ConfiguredExposureAndTrigger(m: NodeMap)
    ensures var c := Configured(m);
            && ExposureAuto in c && c[ExposureAuto] == Str("Off")
            && ExposureTime in c && c[ExposureTime] == Float(44000.0)
            && GainAuto in c && c[GainAuto] == Str("Off")
            && Gain in c && c[Gain] == Float(12.0)
            && TriggerSelector in c && c[TriggerSelector] == Str("FrameStart")
            && TriggerMode in c && c[TriggerMode] == Str("On")
            && TriggerSource in c && c[TriggerSource] == Str("Action0")
  {
    ConfiguredUpdates(m);
  }

  /** After the preparation a camera answers action commands unconditionally,
      on selector 0, with device key 1, group key 1 and group mask 1. */
  lemma ConfiguredActionKeys(m: NodeMap)
    ensures var c := Configured(m);
            && ActionUnconditionalMode in c && c[ActionUnconditionalMode] == Str("On")
            && ActionSelector in c && c[ActionSelector] == Int(0)
            && ActionDeviceKey in c && c[ActionDeviceKey] == Int(1)
            && ActionGroupKey in c && c[ActionGroupKey] == Int(1)
            && ActionGroupMask in c && c[ActionGroupMask] == Int(1)
  {
    ConfiguredUpdates(m);
  }

  /** After the preparation a camera runs PTP, transmits only when released,
      and delivers BayerRG16. */
  lemma ConfiguredTransfer(m: NodeMap)
    ensures var c := Configured(m);
            && PtpEnable in c && c[PtpEnable] == Flag(true)
            && TransferControlMode in c && c[TransferControlMode] == Str("UserControlled")
            && TransferOperationMode in c && c[TransferOperationMode] == Str("Continuous")
            && PixelFormat in c && c[PixelFormat] == Str("BayerRG16")
  {
    ConfiguredUpdates(m);
  }

  /** The action command the prepared system broadcasts once an execute time
      `t` is set: device key 1, group key 1, group mask 1, every address. */
  lemma ConfiguredBroadcast(tl: NodeMap, t: int)
    ensures BroadcastSpec(ConfiguredSystem(tl)[ActionCommandExecuteTime := Int(t)]) ==
            Ok(ActionSpec(1, 1, 1, 0xFFFF_FFFF, t))
  {
  }

  /** A prepared camera acts on exactly the action commands with device key 1,
      group key 1 and an odd group mask. */
  lemma AcceptsConfigured(m: NodeMap, spec: ActionSpec)
    ensures Accepts(Configured(m), spec) <==>
            spec.deviceKey == 1 && spec.groupKey == 1 && spec.groupMask >= 0 && spec.groupMask % 2 == 1
  {
    ConfiguredActionKeys(m);
    if spec.groupMask >= 0 {
      SharesBitWithOne(spec.groupMask);
    }
  }

  /** The keys and mask written to every camera match those written to the
      system, so every prepared camera acts on the command the system fires. */
  lemma BroadcastReachesConfigured(m: NodeMap, tl: NodeMap, t: int)
    ensures Accepts(Configured(m), BroadcastSpec(ConfiguredSystem(tl)[ActionCommandExecuteTime := Int(t)]).value)
  {
    ConfiguredBroadcast(tl, t);
    AcceptsConfigured(m, ActionSpec(1, 1, 1, 0xFFFF_FFFF, t));
  }

  // ---------------------------------------------------------------------------
  // The per-device blocks

  /** Manual exposure time and gain (the exposure block of sync_and_prep). */
  method ConfigureExposure(d: Device) returns (r: Outcome)
    modifies d`nodes
    ensures r.Pass? <==> AllWritable(d.schema, ExposureSettings)
    ensures r.Pass? ==> d.nodes == Apply(old(d.nodes), ExposureSettings)
  {
    r := Pass;
    :- SetNodeValue(d, ExposureAuto, Str("Off"));
    :- SetNodeValue(d, ExposureTime, Float(44000.0));
    :- SetNodeValue(d, GainAuto, Str("Off"));
    :- SetNodeValue(d, Gain, Float(12.0));
  }

  /** Trigger selector, mode and source (the trigger block). */
  method ConfigureTrigger(d: Device) returns (r: Outcome)
    modifies d`nodes
    ensures r.Pass? <==> AllWritable(d.schema, TriggerSettings)
    ensures r.Pass? ==> d.nodes == Apply(old(d.nodes), TriggerSettings)
  {
    r := Pass;
    :- SetNodeValue(d, TriggerSelector, Str("FrameStart"));
    :- SetNodeValue(d, TriggerMode, Str("On"));
    :- SetNodeValue(d, TriggerSource, Str("Action0"));
  }

  /** Unconditional action mode, selector, device key, group key and group
      mask (the action block). */
  method ConfigureActionReceiver(d: Device) returns (r: Outcome)
    modifies d`nodes
    ensures r.Pass? <==> AllWritable(d.schema, ActionSettings)
    ensures r.Pass? ==> d.nodes == Apply(old(d.nodes), ActionSettings)
  {
    r := Pass;
    :- SetNodeValue(d, ActionUnconditionalMode, Str("On"));
    :- SetNodeValue(d, ActionSelector, Int(0));
    :- SetNodeValue(d, ActionDeviceKey, Int(1));
    :- SetNodeValue(d, ActionGroupKey, Int(1));
    :- SetNodeValue(d, ActionGroupMask, Int(1));
  }

  /** Packet size negotiation and packet resend on the stream node map. */
  method ConfigureStream(d: Device) returns (r: Outcome)
    modifies d`streamNodes
    ensures r.Pass? <==> AllWritable(d.streamSchema, StreamSettings)
    ensures r.Pass? ==> d.streamNodes == Apply(old(d.streamNodes), StreamSettings)
  {
    r := Pass;
    :- SetStreamNodeValue(d, StreamAutoNegotiatePacketSize, Flag(true));
    :- SetStreamNodeValue(d, StreamPacketResendEnable, Flag(true));
  }

  /** User-controlled, continuous transfer, then TransferStop so that the camera
      holds its image until released (the transfer control block). */
  method ConfigureTransferControl(sys: System, d: Device) returns (r: Outcome)
    modifies sys`trace, d`nodes, d`transmitting
    ensures r.Pass? <==> AllWritable(d.schema, TransferSettings) && Executable(d.schema, TransferStop)
    ensures r.Pass? ==> && d.nodes == Apply(old(d.nodes), TransferSettings)
                        && !d.transmitting
                        && sys.trace == old(sys.trace) + [Executed(d, TransferStop)]
  {
    r := Pass;
    :- SetNodeValue(d, TransferControlMode, Str("UserControlled"));
    :- SetNodeValue(d, TransferOperationMode, Str("Continuous"));
    :- ExecuteNode(sys, d, TransferStop);
  }

  /** The body of the per-device loop of sync_and_prep: read the serial number,
      then the exposure, trigger, action, PTP, stream, transfer control and
      pixel format blocks. The first rejected access aborts with its error. */
  method PrepareDevice(sys: System, d: Device) returns (r: Outcome)
    modifies sys`trace, d`nodes, d`streamNodes, d`transmitting
    ensures r.Pass? <==> DevicePreparable(old(d.nodes), d.schema, d.streamSchema)
    ensures r.Pass? ==> && d.nodes == Configured(old(d.nodes))
                        && d.streamNodes == ConfiguredStream(old(d.streamNodes))
                        && !d.transmitting
                        && sys.trace == old(sys.trace) + [Executed(d, TransferStop)]
  {
    DeviceSettingsByBlock(d.nodes, d.schema);
    var serial := ReadString(d.nodes, DeviceSerialNumber);
    if serial.Err? {
      return Fail(serial.error);
    }
    :- ConfigureExposure(d);
    :- ConfigureTrigger(d);
    :- ConfigureActionReceiver(d);
    :- SetNodeValue(d, PtpEnable, Flag(true));
    :- ConfigureStream(d);
    :- ConfigureTransferControl(sys, d);
    :- SetNodeValue(d, PixelFormat, Str("BayerRG16"));
    r := Pass;
  }

  // ---------------------------------------------------------------------------
  // The device loop, the system block and the wait

  /** The TransferStop that preparation leaves in the trace for each device, in order. */
  function TransferStops(ds: seq<Device>): seq<Event> {
    seq(|ds|, k requires 0 <= k < |ds| => Executed(ds[k], TransferStop))
  }

  /** Every device of the list accepts the preparation. */
  predicate AllPreparable(ds: seq<Device>)
    reads ds
  {
    forall k :: 0 <= k < |ds| ==> DevicePreparable(ds[k].nodes, ds[k].schema, ds[k].streamSchema)
  }

  /** The device loop of sync_and_prep: prepare each device in turn; the first
      rejected access aborts the loop. */
  method PrepareDevices(sys: System, devices: seq<Device>) returns (r: Outcome)
    requires Distinct(devices)
    modifies sys`trace, devices`nodes, devices`streamNodes, devices`transmitting
    ensures r.Pass? <==> old(AllPreparable(devices))
    ensures r.Pass? ==> && (forall k :: 0 <= k < |devices| ==>
                              && devices[k].nodes == Configured(old(devices[k].nodes))
                              && devices[k].streamNodes == ConfiguredStream(old(devices[k].streamNodes))
                              && !devices[k].transmitting)
                        && sys.trace == old(sys.trace) + TransferStops(devices)
  {
    ghost var stops := [];
    var i := 0;
    while i < |devices|
      invariant 0 <= i <= |devices|
      invariant forall k :: 0 <= k < i ==> old(DevicePreparable(devices[k].nodes, devices[k].schema, devices[k].streamSchema))
      invariant forall k :: 0 <= k < i ==>
                  && devices[k].nodes == Configured(old(devices[k].nodes))
                  && devices[k].streamNodes == ConfiguredStream(old(devices[k].streamNodes))
                  && !devices[k].transmitting
      invariant forall k :: i <= k < |devices| ==>
                  && devices[k].nodes == old(devices[k].nodes)
                  && devices[k].streamNodes == old(devices[k].streamNodes)
      invariant |stops| == i && forall k :: 0 <= k < i ==> stops[k] == Executed(devices[k], TransferStop)
      invariant sys.trace == old(sys.trace) + stops
    {
      r := PrepareDevice(sys, devices[i]);
      if r.Fail? {
        return;
      }
      stops := stops + [Executed(devices[i], TransferStop)];
      i := i + 1;
    }
    assert stops == TransferStops(devices);
    r := Pass;
  }

  /** The system part of sync_and_prep: the broadcast's device key, group key,
      group mask and target address. */
  method PrepareSystem(sys: System) returns (r: Outcome)
    modifies sys`tl
    ensures r.Pass? <==> SystemPreparable(sys.schema)
    ensures r.Pass? ==> sys.tl == ConfiguredSystem(old(sys.tl))
    ensures old(sys.Valid()) ==> sys.Valid()
  {
    r := Pass;
    :- SetSystemNodeValue(sys, ActionCommandDeviceKey, Int(1));
    :- SetSystemNodeValue(sys, ActionCommandGroupKey, Int(1));
    :- SetSystemNodeValue(sys, ActionCommandGroupMask, Int(1));
    :- SetSystemNodeValue(sys, ActionCommandTargetIP, Int(0xFFFF_FFFF));
  }

  /** The preparation leaves a camera's PTP status as it was. */
  lemma ConfiguredKeepsStatus(m: NodeMap)
    ensures ReadString(Configured(m), PtpStatus) == ReadString(m, PtpStatus)
  {
    ApplyUntouched(m, DeviceSettings, PtpStatus);
  }

  /** sync_and_prep gets through on these devices: every camera and the
      system accept their writes and, with PTP_SYNC, the negotiation settles
      within `budget` polls. */
  predicate Prepares(sys: System, devices: seq<Device>, budget: nat)
    reads devices
  {
    && AllPreparable(devices)
    && SystemPreparable(sys.schema)
    && (PTP_SYNC ==> budget > 0 && PtpSync.Settled(devices))
  }

  /** sync_and_prep: prepare each device in turn, then the system, then (with
      PTP_SYNC) wait for the negotiation to settle. The first rejected access
      aborts the whole call. */
  method SyncAndPrep(sys: System, devices: seq<Device>, budget: nat) returns (r: Outcome)
    requires Distinct(devices)
    modifies sys`trace, sys`tl, devices`nodes, devices`streamNodes, devices`transmitting
    ensures r.Pass? <==> old(Prepares(sys, devices, budget))
    ensures r.Pass? ==> && (forall k :: 0 <= k < |devices| ==>
                              && devices[k].nodes == Configured(old(devices[k].nodes))
                              && devices[k].streamNodes == ConfiguredStream(old(devices[k].streamNodes))
                              && !devices[k].transmitting)
                        && sys.tl == ConfiguredSystem(old(sys.tl))
                        && sys.trace == old(sys.trace) + TransferStops(devices)
  {
    ghost var before := PtpSync.Statuses(devices);
    ghost var readable := PtpSync.Readable(devices);
    r := PrepareDevices(sys, devices);
    if r.Fail? {
      return;
    }
    r := PrepareSystem(sys);
    if r.Fail? {
      return;
    }
    if PTP_SYNC {
      forall k | 0 <= k < |devices|
        ensures PtpSync.StatusOf(devices[k]) == old(PtpSync.StatusOf(devices[k]))
      {
        ConfiguredKeepsStatus(old(devices[k].nodes));
      }
      assert PtpSync.Statuses(devices) == before;
      assert PtpSync.Readable(devices) == readable;
      r := PtpSync.WaitForPtpSync(devices, budget);
    }
  }
}

=== FILE: ptpsync.dfy ===
/** Waiting for the cameras' PTP (IEEE 1588) negotiation to settle: the program
    only observes each device's PtpStatus and waits until exactly one device is
    the time master and every other device is a slave. */
module PtpSync {
  import opened NodeMaps
  import opened Arena

  /** GetNodeValue<gcstring>(PtpStatus) on one device. */
  function StatusOf(d: Device): Result<string>
    reads d
  {
    ReadString(d.nodes, PtpStatus)
  }

  /** Every device's PtpStatus can be read. */
  predicate Readable(ds: seq<Device>)
    reads ds
  {
    forall j :: 0 <= j < |ds| ==> StatusOf(ds[j]).Ok?
  }

  /** The devices' statuses in device order; an unreadable status reads as "". */
  function Statuses(ds: seq<Device>): (s: seq<string>)
    reads ds
    ensures |s| == |ds|
    ensures forall j :: 0 <= j < |ds| ==> s[j] == StatusOf(ds[j]).GetOr("")
  {
    if ds == [] then [] else [StatusOf(ds[0]).GetOr("")] + Statuses(ds[1..])
  }

  /** Negotiation is complete: one device is "Master" and all others are "Slave". */
  predicate SingleMaster(s: seq<string>) {
    exists m :: 0 <= m < |s| && s[m] == "Master" && forall j :: 0 <= j < |s| && j != m ==> s[j] == "Slave"
  }

  /** The devices' negotiation has settled, as one poll observes it. */
  predicate Settled(ds: seq<Device>)
    reads ds
  {
    Readable(ds) && SingleMaster(Statuses(ds))
  }

  /** How many statuses equal `x`. */
  function Count(s: seq<string>, x: string): nat {
    if s == [] then 0 else (if s[0] == x then 1 else 0) + Count(s[1..], x)
  }

  /** Every status is a settled role. */
  predicate AllRoles(s: seq<string>) {
    forall j :: 0 <= j < |s| ==> s[j] == "Master" || s[j] == "Slave"
  }

  lemma {:induction false} CountZero(s: seq<string>, x: string)
    ensures Count(s, x) == 0 <==> forall j :: 0 <= j < |s| ==> s[j] != x
  {
    if s != [] {
      CountZero(s[1..], x);
      assert forall j :: 1 <= j < |s| ==> s[j] == s[1..][j - 1];
    }
  }

  /** Settled negotiation, counted: exactly one "Master" and nothing but
      "Master" and "Slave". A second master or any other status (such as
      "Uncalibrated") means negotiation has not finished, and no device at all
      never counts as settled. */
  lemma {:induction false} SingleMasterByCount(s: seq<string>)
    ensures SingleMaster(s) <==> Count(s, "Master") == 1 && AllRoles(s)
  {
    if s == [] {
      return;
    }
    var t := s[1..];
    assert forall j :: 1 <= j < |s| ==> s[j] == t[j - 1];
    SingleMasterByCount(t);
    CountZero(t, "Master");
    if SingleMaster(s) {
      var m :| 0 <= m < |s| && s[m] == "Master" && forall j :: 0 <= j < |s| && j != m ==> s[j] == "Slave";
      if m > 0 {
        assert t[m - 1] == "Master";
        assert forall j :: 0 <= j < |t| && j != m - 1 ==> t[j] == s[j + 1];
        assert SingleMaster(t);
      }
    }
    if Count(s, "Master") == 1 && AllRoles(s) {
      assert AllRoles(t) by {
        forall j | 0 <= j < |t| ensures t[j] == "Master" || t[j] == "Slave" {
          assert t[j] == s[j + 1];
        }
      }
      if s[0] == "Master" {
        assert SingleMaster(s) by {
          forall j | 0 <= j < |s| && j != 0 ensures s[j] == "Slave" {
            assert s[j] == t[j - 1];
          }
        }
      } else {
        var m :| 0 <= m < |t| && t[m] == "Master" && forall j :: 0 <= j < |t| && j != m ==> t[j] == "Slave";
        assert s[m + 1] == "Master";
        assert SingleMaster(s) by {
          forall j | 0 <= j < |s| && j != m + 1 ensures s[j] == "Slave" {
            if j > 0 { assert s[j] == t[j - 1]; }
          }
        }
      }
    }
  }

  /** The poll round gets past the first `j` devices without stopping: each
      of them reads "Master" or "Slave", and no two of them read "Master". */
  predicate Unbroken(ds: seq<Device>, j: nat)
    reads ds
  {
    && j <= |ds|
    && (forall k :: 0 <= k < j ==> StatusOf(ds[k]) == Ok("Master") || StatusOf(ds[k]) == Ok("Slave"))
    && (forall a, b :: 0 <= a < b < j && StatusOf(ds[a]) == Ok("Master") ==> StatusOf(ds[b]) == Ok("Slave"))
  }

  /** The poll round reaches device `j` and cannot read its status. */
  predicate RaisesAt(ds: seq<Device>, j: nat)
    reads ds
  {
    j < |ds| && Unbroken(ds, j) && StatusOf(ds[j]).Err?
  }

  /** A round that gets past `j` devices gets past every shorter prefix. */
  lemma UnbrokenPrefix(ds: seq<Device>, i: nat, j: nat)
    requires Unbroken(ds, j) && i <= j
    ensures Unbroken(ds, i)
  {
  }

  /** A round that stops at a readable status `j` (a second "Master" or an
      unsettled role) raises nowhere: it has read every earlier status and
      reads no later one. */
  lemma StopsWithoutRaising(ds: seq<Device>, j: nat)
    requires j < |ds| && StatusOf(ds[j]).Ok? && Unbroken(ds, j) && !Unbroken(ds, j + 1)
    ensures !exists i :: RaisesAt(ds, i)
  {
    forall i | RaisesAt(ds, i)
      ensures false
    {
      if j < i {
        UnbrokenPrefix(ds, j + 1, i);
      }
    }
  }

  /** At most one device raises in a round: the round stops there. */
  lemma RaisesOnce(ds: seq<Device>, a: nat, b: nat)
    requires RaisesAt(ds, a) && RaisesAt(ds, b)
    ensures a == b
  {
  }

  /** One round of the poll loop of wait_for_ptp_sync: read each device's
      PtpStatus in order, stop at a second "Master" or at any status other than
      "Master" and "Slave", and report whether a single master was found.
      A status that cannot be read raises the read's error, but only when the
      round reaches it: a round that has already stopped reads no further. */
  method PollPtpStatus(devices: seq<Device>) returns (r: Result<bool>)
    ensures r == Ok(true) <==> Settled(devices)
    ensures r.Err? <==> exists j :: RaisesAt(devices, j)
    ensures r.Err? ==> forall j: nat :: RaisesAt(devices, j) ==> StatusOf(devices[j]) == Err(r.error)
  {
    var masterFound := false;
    var restartSyncCheck := false;
    ghost var master := 0;
    var j := 0;
    while j < |devices|
      invariant 0 <= j <= |devices|
      invariant !restartSyncCheck
      invariant forall k :: 0 <= k < j ==> StatusOf(devices[k]) == Ok("Master") || StatusOf(devices[k]) == Ok("Slave")
      invariant masterFound ==> 0 <= master < j && StatusOf(devices[master]) == Ok("Master")
      invariant forall k :: 0 <= k < j && !(masterFound && k == master) ==> StatusOf(devices[k]) == Ok("Slave")
      invariant Unbroken(devices, j)
    {
      var status := ReadString(devices[j].nodes, PtpStatus);
      if status.Err? {
        assert RaisesAt(devices, j);
        forall i: nat | RaisesAt(devices, i)
          ensures StatusOf(devices[i]) == Err(status.error)
        {
          RaisesOnce(devices, i, j);
        }
        return Err(status.error);
      }
      if status.value == "Master" {
        if masterFound {
          // a second master: negotiation is still under way
          restartSyncCheck := true;
          NotSingle(Statuses(devices), master, j);
          StopsWithoutRaising(devices, j);
          break;
        }
        masterFound := true;
        master := j;
      } else if status.value != "Slave" {
        // uncalibrated or otherwise unsettled
        restartSyncCheck := true;
        assert !AllRoles(Statuses(devices));
        SingleMasterByCount(Statuses(devices));
        StopsWithoutRaising(devices, j);
        break;
      }
      j := j + 1;
    }
    if !restartSyncCheck {
      var s := Statuses(devices);
      if masterFound {
        assert SingleMaster(s) by {
          assert s[master] == "Master";
        }
      } else {
        assert !SingleMaster(s);
      }
    }
    r := Ok(!restartSyncCheck && masterFound);
  }

  /** Two masters rule out a settled negotiation. */
  lemma NotSingle(s: seq<string>, a: nat, b: nat)
    requires a < b < |s| && s[a] == "Master" && s[b] == "Master"
    ensures !SingleMaster(s)
  {
  }

  /** wait_for_ptp_sync: poll until a single master is found. The source polls
      without bound, sleeping one second between rounds while the cameras
      negotiate; here at most `budget` rounds are polled. */
  method WaitForPtpSync(devices: seq<Device>, budget: nat) returns (r: Outcome)
    ensures r.Pass? <==> budget > 0 && Settled(devices)
    ensures r.Fail? && r.error != NegotiationPending <==> budget > 0 && exists j :: RaisesAt(devices, j)
    ensures r.Fail? && r.error != NegotiationPending ==>
              forall j: nat :: RaisesAt(devices, j) ==> StatusOf(devices[j]) == Err(r.error)
  {
    var i := 0;
    while i < budget
      invariant 0 <= i <= budget
      invariant i > 0 ==> !Settled(devices) && !exists j :: RaisesAt(devices, j)
    {
      var settled := PollPtpStatus(devices);
      if settled.Err? {
        return Fail(settled.error);
      }
      if settled.value {
        return Pass;
      }
      i := i + 1;
    }
    r := Fail(NegotiationPending);
  }
}
